=== FILE: README.md ===
# AssignmentEvaluator backend — a Dafny model

This project models the request handlers of the AssignmentEvaluator Flask
backend. In that backend, students submit files for assignments that
teachers create and later mark. The three route files are:

- `backend/routes/student.py`: student info and profile, the dashboard
  counters and assignment lists, results, creating a submission, and
  assignment details.
- `backend/routes/teacher.py`: teacher info and profile, creating an
  assignment, the dashboard counters and recent submissions, the full
  submission list with the assignment options, and submission details.
- `backend/routes/auth.py`: login.

The model has no database. It is an immutable value `Tables.Db` with one
sequence of rows per table (`assignments`, `submissions`, `students`,
`teachers`). Each SQL query becomes a function over that value:

- an inner join is a walk over the submissions;
- `LEFT JOIN` is a walk over the assignments;
- `WHERE` is a filter;
- `ORDER BY` is an insertion sort with NULLs placed as PostgreSQL places them;
- `LIMIT 50` is a prefix.

Every handler ends in a `Result<_, Http.Failure>`. The failure gives the
HTTP status: 400 for validation, 401 for bad credentials, 404 for a missing
row, and 500 for a database error or an exception the handler does not catch.

The status is never stored. Both `CASE` expressions derive it from the
submission row alone (`SubmissionStatus`).

The Python semantics the handlers depend on are spelled out in `PyJson`:

- truthiness of decoded JSON values;
- `dict.get`;
- `str.strip` with Unicode whitespace;
- the narrower whitespace `int()` skips around a number: the separators
  U+001C..U+001F are whitespace to `str.strip` but not to `int()`;
- `str.lower` on ASCII;
- `int()` on every JSON value: booleans become 0/1, floats truncate, NaN
  raises ValueError, an infinity raises OverflowError, and strings are parsed.

Modules:

| module | file | concern |
|---|---|---|
| `Wrappers` | wrappers.dfy | `Option`, `Result` |
| `Http` | http.dfy | failure kinds and their status codes |
| `PyJson` | pyjson.dfy | decoded JSON values and the Python built-ins the handlers call |
| `Counting` | counting.dfy | `Count` and `Filter` over sequences, and their algebra |
| `Ordering` | ordering.dfy | `ORDER BY … ASC/DESC` with NULLs last, and `LIMIT` |
| `Tables` | tables.dfy | the four tables' rows, primary-key uniqueness |
| `SubmissionStatus` | status.dfy | the status `CASE` expressions |
| `SubmissionJoin` | join.dfy | `submissions JOIN assignments` |
| `StudentRoutes` | student.dfy | student dashboard, lists and results |
| `StudentSubmit` | submit.dfy | `create_submission` |
| `Lookups` | lookups.dfy | the by-id lookups of people and assignments |
| `TeacherRoutes` | teacher.dfy | teacher dashboard, submission lists, submission details |
| `TeacherCreate` | create.dfy | `create_assignment` |
| `Auth` | auth.dfy | `login` |

## Model

| member | source | states |
|---|---|---|
| Http.Code | backend/routes/auth.py:61-81 | each failure is answered with a 4xx or 5xx code, and with 500 exactly when the database raised or an exception escaped the handler |
| SubmissionStatus.StudentRule | backend/routes/student.py:125-129 | the student `CASE` gives pending exactly when there is no submission, submitted exactly when there is one without marks, and evaluated exactly when there is one with marks |
| SubmissionStatus.SidesAgree | backend/routes/teacher.py:194 | on every submission the teacher `CASE` agrees with the student `CASE` and never says pending |
| SubmissionStatus.Text | backend/routes/student.py:170-174 | the text of each status reads back as that same status, so the three texts are distinct |
| SubmissionStatus.ShownStatus | backend/routes/teacher.py:22 | the shown status is never empty, and a non-empty column value is shown unchanged |
| SubmissionStatus.ShownStatusOfComputed | backend/routes/teacher.py:22 | a status computed by the `CASE` is shown as computed: the "submitted" default never overrides it |
| PyJson.Strip | backend/routes/student.py:235 | `strip()` gives the empty string exactly on all-whitespace input, and otherwise a string that starts and ends with non-whitespace |
| PyJson.StripPadded | backend/routes/teacher.py:93-94 | stripping whitespace padding from a string with non-whitespace ends gives back that string |
| PyJson.StripIdempotent | backend/routes/teacher.py:93-97 | stripping twice equals stripping once |
| PyJson.PyInt | backend/routes/student.py:241 | `int()` raises OverflowError exactly on an infinite float, never raises AttributeError, keeps integers, and maps booleans to 1 and 0; a string is parsed after trimming only the whitespace `int()` skips, which excludes U+001C..U+001F |
| PyJson.ParseIntTextRoundTrip | backend/routes/student.py:241 | `int()` reads the decimal text of every integer back as that integer |
| PyJson.Trunc | backend/routes/teacher.py:105 | `int()` of a finite float is its truncation toward zero |
| Ordering.SortBy | backend/routes/teacher.py:238 | the result is a permutation of the input, sorted on the key in the given direction with NULLs last |
| Ordering.Limit | backend/routes/teacher.py:200 | `LIMIT n` keeps a prefix of length min(n, length) |
| Ordering.LimitKeepsOrder | backend/routes/student.py:133-134 | a limited sorted list is still sorted |
| Ordering.LimitIsTopRows | backend/routes/teacher.py:199-200 | `ORDER BY … LIMIT n` returns n of the rows (all of them when there are fewer), sorted, and no row left out has a key that must come before a shown row's key; this holds whatever order the database gives rows with equal keys |
| SubmissionJoin.InnerJoin | backend/routes/teacher.py:195-196 | every joined row pairs a submission and an assignment from their tables whose ids match |
| SubmissionJoin.InnerJoinContains | backend/routes/teacher.py:195-196 | every submission whose assignment exists appears in the join paired with that assignment |
| SubmissionJoin.UniqueWithId | backend/routes/student.py:280 | under unique assignment ids, an id matches one assignment if it exists and none otherwise |
| StudentRoutes.Join | backend/routes/student.py:175-177 | every `LEFT JOIN` row pairs an assignment of the table either with one of this student's own submissions for that assignment, or with NULL; the NULL row appears only when the student has submitted nothing for it; there is at least one row per assignment |
| StudentRoutes.JoinContains | backend/routes/student.py:175-177 | the student's `LEFT JOIN` holds every one of the student's submissions to an existing assignment, paired with that assignment |
| StudentRoutes.DashboardCounts | backend/routes/student.py:99-114 | evaluated ≤ submitted ≤ total, and pending = total − submitted |
| StudentRoutes.PendingCountsUnsubmittedAssignments | backend/routes/student.py:99-114 | `pending_count` equals the number of assignments the student has no submission for |
| StudentRoutes.TotalCountsJoinedRows | backend/routes/student.py:99-107 | `total_assignments` is at least the number of assignments, with equality exactly when the student has at most one submission per assignment |
| StudentRoutes.ListingMatchesCounters | backend/routes/student.py:117-134 | any permutation of the joined rows shows pending, submitted and evaluated exactly as often as the counters say |
| StudentRoutes.OrderedRows | backend/routes/student.py:178 | the listing is the joined rows, permuted and sorted by deadline ascending |
| StudentRoutes.ToCard | backend/routes/student.py:13-22 | the card keeps the assignment id and derives the status; a present title is kept and the title is blank exactly when NULL or empty; the deadline is the row's, blank exactly when NULL; the subject is always blank; the submission time is the submission's own, null when that is NULL, and null on a pending card |
| StudentRoutes.CardsCountStatus | backend/routes/student.py:187 | the cards show each status exactly as often as the rows they are built from |
| StudentRoutes.AssignmentListMatchesCounters | backend/routes/student.py:163-188 | the full list has `total` entries: `pending` pending ones, `evaluated` evaluated ones and `submitted − evaluated` submitted ones |
| StudentRoutes.DashboardListIsTop50 | backend/routes/student.py:117-138 | the dashboard list is a top-50 selection of the joined rows by deadline: min(50, total) of them, sorted, and no row left out has a deadline that must come before a shown one; with a total of at most 50 it holds every joined row and shows each status as often as the counters say |
| StudentRoutes.ResultsAreTheEvaluatedSubmissions | backend/routes/student.py:197-224 | results are newest first; each is the student's own marked submission joined to its assignment; every such pair appears; every card carries the marks of its submission |
| StudentRoutes.ResultsCountIsEvaluatedCount | backend/routes/student.py:197-204 | the number of results equals the dashboard's `evaluated_count`, duplicates included |
| StudentSubmit.ValidateSubmission | backend/routes/student.py:231-243 | the only failures are a 400 or an exception that escapes; an accepted submission comes from a JSON object; its id is `int()` of the field and its student is the path's; its URL is non-empty with non-whitespace ends |
| StudentSubmit.CheckSubmissionFields | backend/routes/student.py:234-243 | the only failures are a 400 or an exception that escapes; an accepted submission has `int()` of the id, the path's student, and the stripped `file_url`, which is non-empty with non-whitespace ends |
| StudentSubmit.SubmissionRejections | backend/routes/student.py:231-243 | each listed defect yields its own 400 message: no body, a falsy `assignment_id`, a blank `file_url`, an unconvertible id |
| StudentSubmit.AcceptsTextualIds | backend/routes/student.py:234-241 | an id sent as the decimal text of any integer, zero included, padded with whitespace `int()` skips, and a URL padded with whitespace `strip()` removes, are accepted as that integer and the stripped URL |
| StudentSubmit.RejectsSeparatorLedId | backend/routes/student.py:234-243 | an id led by one of U+001C..U+001F and followed by an integer's text is answered 400 "Invalid assignment_id." |
| PyJson.ParsePaddedIntText | backend/routes/student.py:241 | `int()` reads the decimal text of every integer, padded with any whitespace `int()` skips (every `strip()` whitespace except U+001C..U+001F), as that integer |
| PyJson.SeparatorBlocksInt | backend/routes/student.py:241 | one of U+001C..U+001F before an integer's text is removed by `strip()` but makes `int()` raise ValueError |
| StudentSubmit.AcceptsConvertibleFields | backend/routes/student.py:234-243 | a body with a truthy id that `int()` converts and a non-blank URL is accepted |
| StudentSubmit.OverflowingIdCrashes | backend/routes/student.py:240-243 | as written, an infinite `assignment_id` escapes the handler and yields 500 |
| StudentSubmit.IntendedRejectsEveryUnconvertibleId | backend/routes/student.py:240-243 | with OverflowError caught as well, every id `int()` cannot convert yields the 400 "Invalid assignment_id." |
| StudentSubmit.Submit | backend/routes/student.py:244-266 | a rejected body or a missing assignment leaves the tables unchanged; an accepted one appends exactly one row, whose id is fresh |
| StudentSubmit.SubmitEffectOnDashboard | backend/routes/student.py:247-254 | a new submission shows as submitted; the student's `submitted_count` grows by one; evaluated and results are unchanged; pending drops by one only on the first submission for that assignment |
| StudentSubmit.SubmitLeavesOtherStudents | backend/routes/student.py:247-254 | another student's counters, list and results do not change |
| Lookups.PersonLookup | backend/routes/student.py:25-54 | 404 "… not found." exactly when no row has the path id; otherwise the path id plus some matching row's name, or the fallback, and its email or "" |
| Lookups.PersonLookupFindsTheRow | backend/routes/teacher.py:26-84 | under unique ids, info and profile answer with the one matching row; for a missing name, info falls back to the id and profile falls back to "" |
| Lookups.UniqueWithPersonId | backend/routes/teacher.py:34-40 | under unique ids, at most one row has a given id, and a present id finds exactly its own row |
| Lookups.AssignmentById | backend/routes/student.py:269-301 | 404 "Assignment not found." exactly when no assignment has the id; otherwise the assignment's id, title, deadline and description, with an empty subject |
| TeacherRoutes.TeacherCounts | backend/routes/teacher.py:146-187 | pending + evaluated = received; the total is at most the number of assignments and is zero exactly when the teacher owns none |
| TeacherRoutes.TeacherCountersMeaning | backend/routes/teacher.py:153-187 | received, pending and evaluated count the submissions on the teacher's existing assignments: all of them, those with NULL marks, and those with marks |
| TeacherRoutes.ListingRowsOnePerRow | backend/routes/teacher.py:196-197 | under unique student ids, the `LEFT JOIN students` keeps exactly one row per joined submission, in order |
| TeacherRoutes.OrderedListing | backend/routes/teacher.py:229-238 | the listing is the teacher's joined rows, permuted and sorted by submission time descending with NULLs last |
| TeacherRoutes.ToSubmissionCard | backend/routes/teacher.py:13-23 | the card keeps the ids; the name is the row's non-empty name, else the student id; the title is the row's non-empty title, else ""; the time is the row's time, or none when NULL; the status is the row's non-empty status, else "submitted" |
| TeacherRoutes.CardStatus | backend/routes/teacher.py:194 | each card shows "evaluated" when its submission has marks and "submitted" otherwise |
| TeacherRoutes.SubmissionListMatchesCounters | backend/routes/teacher.py:229-254 | the full list has `submissions_received` entries: `pending_evaluation` show "submitted" and `evaluated_count` show "evaluated" |
| TeacherRoutes.RecentIsTop50 | backend/routes/teacher.py:190-211 | the recent submissions are a top-50 selection of the teacher's rows by submission time: min(50, received) of them, newest first with NULL times last, and none left out is newer than a shown one; with at most 50 received they show "submitted" and "evaluated" as often as the counters say |
| TeacherRoutes.TeacherAndStudentAgree | backend/routes/teacher.py:231-233 | every submission on the teacher's list appears in its student's listing with the same status text |
| TeacherRoutes.AssignmentOptions | backend/routes/teacher.py:243-255 | exactly the teacher's assignments, one option each (as many as `total_assignments`), with a missing title shown as "" |
| TeacherRoutes.SubmissionById | backend/routes/teacher.py:263-303 | 404 "Submission not found." exactly when no submission with the id has an existing assignment; otherwise the fields of such a submission and its assignment, with the joined student's name, or the student id when that name is NULL or empty |
| TeacherRoutes.JoinedNameOfTheStudent | backend/routes/teacher.py:277-295 | under unique student ids, the name the `LEFT JOIN students` brings is that student's own |
| TeacherRoutes.SubmissionByIdIsTheSubmission | backend/routes/teacher.py:269-298 | under unique ids, the details are those of the one submission with that id, with the status its marks give and the student name or its id fallback |
| TeacherCreate.CheckMaxMarks | backend/routes/teacher.py:104-109 | `max_marks` is accepted exactly when `int()` converts it to at least 1; an infinite value is a 500 as written (a 400 when the OverflowError is caught), and every other rejection is a 400 |
| TeacherCreate.CheckFields | backend/routes/teacher.py:93-109 | checks run in source order; an accepted assignment has the path's teacher, the non-empty stripped title, the truthy deadline as sent, `int()` of max_marks (at least 1), and a description and `file_url` that are the stripped inputs with "" turned into None |
| TeacherCreate.ValidateAssignment | backend/routes/teacher.py:90-109 | the only failures are a 400 or an exception that escapes; an accepted assignment comes from a JSON object body |
| TeacherCreate.FieldRejections | backend/routes/teacher.py:98-109 | a blank title, a falsy deadline, a missing max_marks, and a max_marks below 1 each give their own 400 message |
| TeacherCreate.BodyRejections | backend/routes/teacher.py:90-92 | a missing or empty body is rejected with "No JSON body." |
| TeacherCreate.AcceptsPaddedTitleAndTextMarks | backend/routes/teacher.py:93-105 | a padded title is stored stripped, and max marks sent as text are accepted as their value |
| TeacherCreate.MaxMarksConversions | backend/routes/teacher.py:104-109 | `true` is accepted as 1; `false` and 0.5 are rejected; 7.9 is accepted as 7 |
| TeacherCreate.RejectsSeparatorLedMaxMarks | backend/routes/teacher.py:104-109 | a `max_marks` led by one of U+001C..U+001F and followed by an integer's text is refused with the 400 for max marks |
| TeacherCreate.OverflowingMaxMarksCrashes | backend/routes/teacher.py:104-109 | as written, an infinite `max_marks` escapes the handler (500); if the OverflowError were caught it would be a 400 |
| TeacherCreate.IntendedRejectsEveryUnconvertibleMaxMarks | backend/routes/teacher.py:104-109 | with OverflowError caught as well, every `max_marks` that is not a convertible value of at least 1 gives the 400 message |
| TeacherCreate.CreateAssignment | backend/routes/teacher.py:110-133 | a rejected body or an uncastable deadline leaves the tables unchanged, the latter answered with 500; on success exactly one row with a fresh id is appended |
| TeacherCreate.CreateAssignmentTeacherEffect | backend/routes/teacher.py:114-121 | the teacher's total grows by one, the other counters stay, and the new id is found with its title |
| TeacherCreate.CreateAssignmentStudentEffect | backend/routes/teacher.py:114-121 | for every student: total and pending grow by one; submitted, evaluated and results stay |
| TeacherCreate.ForeignKeyKept | backend/routes/student.py:244-261 | both inserting handlers keep every submission pointing at an existing assignment |
| Auth.ParseRole | backend/routes/auth.py:29-34 | the role is accepted exactly when its lower-cased, stripped text is "student" or "teacher" |
| Auth.RoleVariantsAccepted | backend/routes/auth.py:29-34 | any capitalisation of a role, with any whitespace padding, is accepted as that role |
| Auth.RoleMapping | backend/routes/auth.py:36-43 | the table is the role's plural and the id column is the role plus "_id"; the mapping is injective and the name column is "name" |
| Auth.LoginQuery | backend/routes/auth.py:14-55 | the query names one of the two fixed (table, id column) pairs, the one for the parsed role, and the name column is "name"; the id and password are the body's non-empty strings; failures are only 400s, an escaped exception, or a database error |
| Auth.LoginRejections | backend/routes/auth.py:16-34 | no body, a missing or falsy field, and an unknown role each give their 400 message |
| Auth.Login | backend/routes/auth.py:45-81 | success exactly when some account in the role's table has the id and password; otherwise 401 "Invalid ID or password."; on success the role, the sent id and the name (or the id) |
| Auth.RejectionsIgnoreTheDatabase | backend/routes/auth.py:16-43 | a body rejected before the query gets the same answer whatever the tables hold |
| Auth.LoginFindsTheAccount | backend/routes/auth.py:50-76 | under unique ids, a successful login answers with the one account holding that id |

## Left out

- The database connection, cursors, commits and closing are not modelled. The configuration (`backend/db.py`, `backend/config.py`, `backend/app.py`) is not part of this model.
- The `except Exception` 500 paths are not modelled beyond the failures named in the model: a cast that fails, a foreign key, and a non-text login value. The database is otherwise assumed not to fail.
- Timestamps are integers. The `::text` cast and the `__str__` rendering of dates are not modelled; a present timestamp shows as `ShownAt(t)`.
- The `::timestamp` cast of the deadline is the parameter `toTimestamp` of `TeacherCreate.CreateAssignment`. The insert time of a submission is the parameter `now`. The INSERT names only `assignment_id`, `student_id` and `file_url`, so `submitted_at` taking that time is an assumed column default: no route file declares it, and the schema is not part of this model. Without that default the stored time would be NULL, which the teacher listing's `NULLS LAST` still orders. `SERIAL` ids are modelled as one more than the largest id in the table.
- `ORDER BY title` in the assignment options depends on the database collation, so it is not modelled. `TeacherRoutes.AssignmentOptions` states the contents and the count, not the order.
- `TeacherRoutes.AssignmentOptions`: weaker than the source, because it does not state that the options are sorted by title.
- `fetchone()` on a query that matches several rows picks an unspecified row. The model takes the first in table order and proves the answer under unique primary keys.
- `str.lower` is modelled on ASCII letters only. Other letters are left unchanged; no such letter can turn a word into "student" or "teacher".
- `int()` on strings of Unicode digits other than ASCII, and the interpreter's limit on digits in integer strings, are not modelled.
- Flask's own handling of bodies that are not JSON is outside the handlers. The model starts from the decoded body, or none.
- Rejections by the `submissions` table other than the foreign key are not modelled, for example a `file_url` too long for its column.
- The foreign key from `submissions.assignment_id` to `assignments.id` is assumed: no route file declares it, and the schema is not part of this model. `create_submission` is modelled as answering 500 for an id with no assignment, which is what that key makes the database do; without the key the row would be stored.
- StudentSubmit.Submit: uses the corrected validation, so an `assignment_id` that decodes to an infinite float is answered 400, where the handler as written answers 500 (see Findings; `StudentSubmit.OverflowingIdCrashes` states the written behaviour).
- TeacherCreate.CreateAssignment: uses the corrected validation, so a `max_marks` that decodes to an infinite float is answered 400, where the handler as written answers 500 (see Findings; `TeacherCreate.OverflowingMaxMarksCrashes` states the written behaviour).
- StudentRoutes.DashboardListIsTop50: which of several rows with equal deadlines the dashboard shows, and whether it lists them in the same order as the full list, is left open, because PostgreSQL orders ties arbitrarily in each query. The model sorts stably, but no stated property depends on it.
- TeacherRoutes.RecentIsTop50: likewise, which of several submissions with equal (or NULL) times the recent list shows, and in which order relative to the full list, is left open.
- Each handler is modelled as reading one database state. The dashboards run their counter queries and their list queries as separate statements, and at PostgreSQL's default READ COMMITTED each statement sees its own snapshot. So the counter-agreement clauses of `StudentRoutes.DashboardListIsTop50` and `TeacherRoutes.RecentIsTop50` hold only when no write commits between the handler's statements. `StudentRoutes.AssignmentListMatchesCounters` and `TeacherRoutes.SubmissionListMatchesCounters` compare a full-list request with the dashboard's counters over the same state, so they hold only when no write commits between those two requests.
- `Auth.LoginQuery`: assumes the id and password columns are text. A non-string JSON id or password is modelled as a database error (500).
- `Auth.Login`: the `full_name` fallback never applies, because only the id and name columns are selected. The name falls back to the id.
- The student's `subject` and `score` fields never appear in the selected columns, so they are always `""` and null.
- The route files contain no blob-storage upload, file replacement, deletion or evaluation with marks, so none is modelled. `create_submission` takes `file_url` as a plain text field and uploads nothing.
- The one-off scripts `check_schema.py`, `update_db.py` and `backend/test_db.py` talk to a live database and are not part of this model.

## Findings

| source | as written | input that shows it | evidently intended | confidence | as-written member | corrected member |
|---|---|---|---|---|---|---|
| backend/routes/student.py:240-243 | `int(assignment_id)` is guarded by `except (TypeError, ValueError)` only | body `{"assignment_id": 1e400, "file_url": "x"}`: it decodes to an infinite float, and `int()` raises OverflowError, which escapes and gives 500 | every id that cannot be converted gets the 400 "Invalid assignment_id." | not executed | StudentSubmit.OverflowingIdCrashes | StudentSubmit.IntendedRejectsEveryUnconvertibleId |
| backend/routes/teacher.py:104-109 | `int(max_marks)` is guarded by `except (TypeError, ValueError)` only | body with `"max_marks": 1e400` and a valid title and deadline: OverflowError escapes and gives 500 | every `max_marks` that cannot be converted gets the 400 "Maximum marks must be a positive number." | not executed | TeacherCreate.OverflowingMaxMarksCrashes | TeacherCreate.IntendedRejectsEveryUnconvertibleMaxMarks |

`StudentSubmit.Submit` and `TeacherCreate.CreateAssignment`, and every
lemma about their effects, use the corrected validation. On every other
input the corrected validation agrees with the code as written; the
corrected-member lemmas prove this agreement.

=== FILE: auth.dfy ===
/**
 * `POST /login`: the body checks, the role normalisation, the fixed mapping
 * from role to table and id column, and the credential lookup.
 */
module Auth {
  import opened Wrappers
  import opened PyJson
  import opened Http
  import opened Tables
  import opened Counting
  import opened Lookups

  datatype Role = Student | Teacher

  function RoleText(r: Role): string {
    match r
    case Student => "student"
    case Teacher => "teacher"
  }

  /** The table the role's accounts live in. */
  function Table(r: Role): string {
    match r
    case Student => "students"
    case Teacher => "teachers"
  }

  /** The role's id column. */
  function IdColumn(r: Role): string {
    match r
    case Student => "student_id"
    case Teacher => "teacher_id"
  }

  /** Both roles read the display name from `name`. */
  const NameColumn := "name"

  /** The mapping is the fixed pair for each role: the table is the role's
      plural and the id column its `_id`, and distinct roles never share a
      table or a column. */
  lemma RoleMapping(r: Role, r': Role)
    ensures Table(r) == RoleText(r) + "s" && IdColumn(r) == RoleText(r) + "_id"
    ensures (Table(r), IdColumn(r)) in {("students", "student_id"), ("teachers", "teacher_id")}
    ensures r != r' ==> Table(r) != Table(r') && IdColumn(r) != IdColumn(r')
  {
  }

  /** `role.lower().strip()`. */
  function NormaliseRole(s: string): string {
    Strip(LowerAscii(s))
  }

  /** `role not in ("student", "teacher")` after normalising. */
  function ParseRole(s: string): (r: Option<Role>)
    ensures r.Some? <==> NormaliseRole(s) == "student" || NormaliseRole(s) == "teacher"
    ensures r.Some? ==> RoleText(r.value) == NormaliseRole(s)
  {
    var n := NormaliseRole(s);
    if n == "student" then Some(Student)
    else if n == "teacher" then Some(Teacher)
    else None
  }

  lemma LowerKeepsSpace(s: string)
    requires AllSpace(s)
    ensures AllSpace(LowerAscii(s))
  {
  }

  lemma LowerPadded(pad: string, word: string, pad': string)
    ensures LowerAscii(pad + word + pad') == LowerAscii(pad) + LowerAscii(word) + LowerAscii(pad')
  {
    LowerAsciiAppend(pad + word, pad');
    LowerAsciiAppend(pad, word);
  }

  lemma RoleTextUnpadded(r: Role)
    ensures var w := RoleText(r); w != [] && !IsSpace(w[0]) && !IsSpace(w[|w| - 1])
  {
  }

  /** Any capitalisation of a role name, with any whitespace around it, is
      that role. */
  lemma RoleVariantsAccepted(r: Role, word: string, pad: string, pad': string)
    requires AllSpace(pad) && AllSpace(pad')
    requires LowerAscii(word) == RoleText(r)
    ensures ParseRole(pad + word + pad') == Some(r)
  {
    var p := LowerAscii(pad);
    var q := LowerAscii(pad');
    LowerPadded(pad, word, pad');
    assert LowerAscii(pad + word + pad') == p + RoleText(r) + q;
    LowerKeepsSpace(pad);
    LowerKeepsSpace(pad');
    RoleTextUnpadded(r);
    StripPadded(p, RoleText(r), q);
    ParseRoleOfText(pad + word + pad', r);
  }

  lemma ParseRoleOfText(s: string, r: Role)
    requires NormaliseRole(s) == RoleText(r)
    ensures ParseRole(s) == Some(r)
  {
  }

  const NoBody := "No JSON body provided."
  const MissingFields := "Missing required fields: id, password, role."
  const InvalidRole := "Invalid role."
  const BadCredentials := "Invalid ID or password."

  /** The query the handler runs: `SELECT <id column>, <name column> FROM
      <table> WHERE <id column> = %s AND password = %s`, with the two
      parameters. */
  datatype Query = Query(role: Role, table: string, idColumn: string, nameColumn: string, id: string, password: string)

  /** The checks in front of the query, in the handler's order. The columns
      are text, so an id or password that is not a JSON string makes the
      query itself fail. Whatever the body, the SQL identifiers of a query
      that runs are one of the two fixed (table, id column) pairs and `name`:
      they never come from the request. */
  function LoginQuery(body: Option<Json>): (r: Result<Query, Failure>)
    ensures r.Failure? ==> r.error.BadRequest? || r.error.Crash? || r.error == DbError
    ensures r.Success? ==>
              && (r.value.table, r.value.idColumn) in {("students", "student_id"), ("teachers", "teacher_id")}
              && r.value.table == Table(r.value.role) && r.value.idColumn == IdColumn(r.value.role)
              && r.value.nameColumn == "name"
    ensures r.Success? ==>
              && body.Some? && body.value.JObject?
              && var f := body.value.fields;
              && Get(f, "id") == JStr(r.value.id) && r.value.id != ""
              && Get(f, "password") == JStr(r.value.password) && r.value.password != ""
              && Get(f, "role").JStr? && ParseRole(Get(f, "role").s) == Some(r.value.role)
  {
    if !HasBody(body) then Failure(BadRequest(NoBody))
    else if !body.value.JObject? then Failure(Crash)
    else
      var f := body.value.fields;
      var id := Get(f, "id");
      var password := Get(f, "password");
      var role := Get(f, "role");
      if !Truthy(id) || !Truthy(password) || !Truthy(role) then Failure(BadRequest(MissingFields))
      else if !role.JStr? then Failure(Crash)
      else
        match ParseRole(role.s)
        case None => Failure(BadRequest(InvalidRole))
        case Some(r) =>
          if !id.JStr? || !password.JStr? then Failure(DbError)
          else
            RoleMapping(r, r);
            Success(Query(r, Table(r), IdColumn(r), NameColumn, id.s, password.s))
  }

  /** The 400 answers, each with its message, in the handler's order. */
  lemma LoginRejections(body: Option<Json>)
    ensures !HasBody(body) ==> LoginQuery(body) == Failure(BadRequest(NoBody))
    ensures HasBody(body) && body.value.JObject? ==>
              var f := body.value.fields;
              && (!Truthy(Get(f, "id")) || !Truthy(Get(f, "password")) || !Truthy(Get(f, "role")) ==>
                    LoginQuery(body) == Failure(BadRequest(MissingFields)))
              && (Truthy(Get(f, "id")) && Truthy(Get(f, "password")) && Get(f, "role").JStr? && Get(f, "role").s != ""
                  && ParseRole(Get(f, "role").s).None? ==>
                    LoginQuery(body) == Failure(BadRequest(InvalidRole)))
  {
  }

  /** The accounts of the role's table. */
  function Accounts(db: Db, r: Role): seq<Person> {
    match r
    case Student => db.students
    case Teacher => db.teachers
  }

  predicate Matches(id: string, password: string, p: Person) {
    p.id == id && p.password == password
  }

  /** `WHERE <id column> = %s AND password = %s`, in table order. */
  function Matching(accounts: seq<Person>, id: string, password: string): (r: seq<Person>)
    ensures forall k :: 0 <= k < |r| ==> r[k] in accounts && Matches(id, password, r[k])
    ensures forall k :: 0 <= k < |accounts| && Matches(id, password, accounts[k]) ==> accounts[k] in r
  {
    if accounts == [] then []
    else
      var init := accounts[..|accounts| - 1];
      var p := accounts[|accounts| - 1];
      assert accounts == init + [p];
      if Matches(id, password, p) then Matching(init, id, password) + [p] else Matching(init, id, password)
  }

  /** The 200 answer. */
  datatype LoginOk = LoginOk(message: string, role: string, id: string, name: string)

  /** `POST /login`: 200 with the normalised role, the submitted id and the
      account's name (the id when it has none) for a matching account;
      401 when the id and password match no account of the role. */
  function Login(db: Db, body: Option<Json>): (r: Result<LoginOk, Failure>)
    ensures LoginQuery(body).Failure? ==> r == Failure(LoginQuery(body).error)
    ensures LoginQuery(body).Success? ==>
              var q := LoginQuery(body).value;
              var accounts := Accounts(db, q.role);
              && (r.Success? <==> exists k :: 0 <= k < |accounts| && Matches(q.id, q.password, accounts[k]))
              && (r.Failure? ==> r.error == Unauthorized(BadCredentials))
              && (r.Success? ==>
                    && r.value.role == RoleText(q.role)
                    && r.value.message == "Login successful as " + RoleText(q.role)
                    && r.value.id == q.id
                    && r.value.name != ""
                    && exists k :: 0 <= k < |accounts| && Matches(q.id, q.password, accounts[k])
                                   && r.value.name == OrElse(accounts[k].name, q.id))
  {
    match LoginQuery(body)
    case Failure(e) => Failure(e)
    case Success(q) =>
      var found := Matching(Accounts(db, q.role), q.id, q.password);
      if found == [] then
        Failure(Unauthorized(BadCredentials))
      else
        var p := found[0];
        assert p in Accounts(db, q.role);
        var role := RoleText(q.role);
        Success(LoginOk("Login successful as " + role, role, q.id, OrElse(p.name, q.id)))
  }

  /** Every answer but 200 and 401 is decided before the database is read:
      it is the same whatever the tables hold. */
  lemma RejectionsIgnoreTheDatabase(db: Db, db': Db, body: Option<Json>)
    requires Login(db, body).Failure? && Login(db, body).error != Unauthorized(BadCredentials)
    ensures Login(db', body) == Login(db, body)
  {
  }

  /** With the id column a primary key, a login with an account's own id and
      password succeeds with that account's name. */
  lemma LoginFindsTheAccount(db: Db, body: Option<Json>, k: int)
    requires LoginQuery(body).Success?
    requires var q := LoginQuery(body).value;
             && UniquePersonIds(Accounts(db, q.role))
             && 0 <= k < |Accounts(db, q.role)|
             && Matches(q.id, q.password, Accounts(db, q.role)[k])
    ensures var q := LoginQuery(body).value;
            Login(db, body) == Success(LoginOk("Login successful as " + RoleText(q.role), RoleText(q.role), q.id,
                                               OrElse(Accounts(db, q.role)[k].name, q.id)))
  {
    var q := LoginQuery(body).value;
    var accounts := Accounts(db, q.role);
    var found := Matching(accounts, q.id, q.password);
    assert accounts[k] in found;
    assert found[0] in accounts && found[0].id == q.id;
    PersonKey(accounts, found[0], accounts[k]);
  }
}

=== FILE: counting.dfy ===
/** `COUNT(...)` over a sequence of rows: how many satisfy a predicate. */
module Counting {

  function Count<T>(xs: seq<T>, p: T -> bool): (n: nat)
    ensures n <= |xs|
    ensures n == 0 <==> forall k :: 0 <= k < |xs| ==> !p(xs[k])
    ensures n == |xs| <==> forall k :: 0 <= k < |xs| ==> p(xs[k])
  {
    if xs == [] then 0
    else
      var init := xs[..|xs| - 1];
      var n := Count(init, p) + (if p(xs[|xs| - 1]) then 1 else 0);
      assert forall k :: 0 <= k < |init| ==> init[k] == xs[k];
      n
  }

  lemma {:induction false} CountAppend<T>(xs: seq<T>, ys: seq<T>, p: T -> bool)
    ensures Count(xs + ys, p) == Count(xs, p) + Count(ys, p)
  {
    if ys == [] {
      assert xs + ys == xs;
    } else {
      assert (xs + ys)[..|xs + ys| - 1] == xs + ys[..|ys| - 1];
      assert (xs + ys)[|xs + ys| - 1] == ys[|ys| - 1];
      CountAppend(xs, ys[..|ys| - 1], p);
    }
  }

  lemma CountSingle<T>(x: T, p: T -> bool)
    ensures Count([x], p) == if p(x) then 1 else 0
  {
    assert [x][..0] == [];
  }

  /** Counting does not depend on the order of the rows. */
  lemma {:induction false} CountPermutation<T>(xs: seq<T>, ys: seq<T>, p: T -> bool)
    requires multiset(xs) == multiset(ys)
    ensures Count(xs, p) == Count(ys, p)
  {
    if xs == [] {
      assert |ys| == |multiset(ys)| == 0;
    } else {
      var x := xs[|xs| - 1];
      var init := xs[..|xs| - 1];
      assert xs == init + [x];
      assert multiset(init) == multiset(xs) - multiset{x};
      assert x in multiset(ys);
      var k :| 0 <= k < |ys| && ys[k] == x;
      var rest := RemoveAt(ys, k, p);
      CountPermutation(init, rest, p);
      CountAppend(init, [x], p);
      CountSingle(x, p);
    }
  }

  /** `ys` without its `k`-th row: one copy fewer of that row, one fewer count if it satisfies `p`. */
  lemma RemoveAt<T>(ys: seq<T>, k: nat, p: T -> bool) returns (rest: seq<T>)
    requires k < |ys|
    ensures rest == ys[..k] + ys[k + 1..]
    ensures multiset(rest) == multiset(ys) - multiset{ys[k]}
    ensures Count(ys, p) == Count(rest, p) + (if p(ys[k]) then 1 else 0)
  {
    rest := ys[..k] + ys[k + 1..];
    assert ys == ys[..k] + [ys[k]] + ys[k + 1..];
    CountAppend(ys[..k] + [ys[k]], ys[k + 1..], p);
    CountAppend(ys[..k], [ys[k]], p);
    CountAppend(ys[..k], ys[k + 1..], p);
    CountSingle(ys[k], p);
  }

  /** A weaker predicate counts at least as many rows. */
  lemma {:induction false} CountMonotone<T>(xs: seq<T>, p: T -> bool, q: T -> bool)
    requires forall k :: 0 <= k < |xs| && p(xs[k]) ==> q(xs[k])
    ensures Count(xs, p) <= Count(xs, q)
  {
    if xs != [] {
      CountMonotone(xs[..|xs| - 1], p, q);
    }
  }

  /** Predicates that agree on every row count the same rows. */
  lemma {:induction false} CountSame<T>(xs: seq<T>, p: T -> bool, q: T -> bool)
    requires forall k :: 0 <= k < |xs| ==> p(xs[k]) == q(xs[k])
    ensures Count(xs, p) == Count(xs, q)
  {
    CountMonotone(xs, p, q);
    CountMonotone(xs, q, p);
  }

  /** If every row satisfies exactly one of `q` and `r` when it satisfies `p`,
      and neither otherwise, then the `p`-rows split into `q`-rows and `r`-rows. */
  lemma {:induction false} CountSplit<T>(xs: seq<T>, p: T -> bool, q: T -> bool, r: T -> bool)
    requires forall k :: 0 <= k < |xs| ==> (p(xs[k]) <==> q(xs[k]) || r(xs[k]))
    requires forall k :: 0 <= k < |xs| ==> !(q(xs[k]) && r(xs[k]))
    ensures Count(xs, p) == Count(xs, q) + Count(xs, r)
  {
    if xs != [] {
      CountSplit(xs[..|xs| - 1], p, q, r);
    }
  }

  /** Two complementary predicates together count every row once. */
  lemma {:induction false} CountComplement<T>(xs: seq<T>, p: T -> bool, q: T -> bool)
    requires forall k :: 0 <= k < |xs| ==> p(xs[k]) != q(xs[k])
    ensures Count(xs, p) + Count(xs, q) == |xs|
  {
    if xs != [] {
      CountComplement(xs[..|xs| - 1], p, q);
    }
  }

  /** `WHERE p`: the rows satisfying `p`, in their original order. */
  function Filter<T>(xs: seq<T>, p: T -> bool): (r: seq<T>)
    ensures |r| == Count(xs, p)
    ensures forall k :: 0 <= k < |r| ==> p(r[k]) && r[k] in xs
    ensures forall k :: 0 <= k < |xs| && p(xs[k]) ==> xs[k] in r
  {
    if xs == [] then []
    else
      var init := xs[..|xs| - 1];
      var x := xs[|xs| - 1];
      assert xs == init + [x];
      if p(x) then Filter(init, p) + [x] else Filter(init, p)
  }

  lemma {:induction false} FilterAppend<T>(xs: seq<T>, ys: seq<T>, p: T -> bool)
    ensures Filter(xs + ys, p) == Filter(xs, p) + Filter(ys, p)
  {
    if ys == [] {
      assert xs + ys == xs;
    } else {
      var init := ys[..|ys| - 1];
      assert (xs + ys)[..|xs + ys| - 1] == xs + init;
      assert (xs + ys)[|xs + ys| - 1] == ys[|ys| - 1];
      FilterAppend(xs, init, p);
    }
  }

  /** Two row sequences of equal length whose rows agree, position by
      position, on their predicates have the same count. */
  lemma {:induction false} CountAlong<A, B>(xs: seq<A>, ys: seq<B>, p: A -> bool, q: B -> bool)
    requires |xs| == |ys|
    requires forall k :: 0 <= k < |xs| ==> p(xs[k]) == q(ys[k])
    ensures Count(xs, p) == Count(ys, q)
  {
    if xs != [] {
      CountAlong(xs[..|xs| - 1], ys[..|ys| - 1], p, q);
    }
  }

  /** Counting `q` among the rows `p` keeps is counting `p && q` among all. */
  lemma {:induction false} CountFilter<T>(xs: seq<T>, p: T -> bool, q: T -> bool, pq: T -> bool)
    requires forall k :: 0 <= k < |xs| ==> pq(xs[k]) == (p(xs[k]) && q(xs[k]))
    ensures Count(Filter(xs, p), q) == Count(xs, pq)
  {
    if xs != [] {
      var init := xs[..|xs| - 1];
      var x := xs[|xs| - 1];
      assert xs == init + [x];
      CountFilter(init, p, q, pq);
      if p(x) {
        CountAppend(Filter(init, p), [x], q);
      }
    }
  }
}

=== FILE: create.dfy ===
/**
 * `POST /teacher/<teacher_id>/assignments`: the field checks in front of the
 * INSERT, and what the new row does to the teacher's and the students'
 * views.
 */
module TeacherCreate {
  import opened Wrappers
  import opened PyJson
  import opened Http
  import opened Tables
  import opened Counting
  import opened SubmissionJoin
  import opened Lookups
  import StudentRoutes
  import TeacherRoutes
  import StudentSubmit

  /** The INSERT's parameters. `deadline` is passed on as decoded; the
      database casts it with `::timestamp`. */
  datatype NewAssignment = NewAssignment(
    title: string,
    description: Option<string>,
    teacherId: string,
    deadline: Json,
    maxMarks: int,
    fileUrl: Option<string>)

  const NoBody := "No JSON body."
  const MissingTitle := "Assignment title is required."
  const MissingDeadline := "Deadline is required."
  const MissingMaxMarks := "Maximum marks is required."
  const InvalidMaxMarks := "Maximum marks must be a positive number."

  /** `s or None` on a stripped string. */
  function NoneIfEmpty(s: string): (r: Option<string>)
    ensures r.None? <==> s == ""
    ensures r.Some? ==> r.value == s
  {
    if s == "" then None else Some(s)
  }

  /** A stripped optional text: absent, or non-empty with no whitespace at
      either end. */
  predicate Trimmed(v: Option<string>) {
    v.Some? ==> v.value != "" && !IsSpace(v.value[0]) && !IsSpace(v.value[|v.value| - 1])
  }

  /** `(v or "").strip() or None` is absent or a stripped text. */
  lemma StrippedIsTrimmed(v: Json)
    requires StrippedOrEmpty(v).Success?
    ensures Trimmed(NoneIfEmpty(StrippedOrEmpty(v).value))
  {
    var s := StrippedOrEmpty(v).value;
    if s != "" {
      assert v.JStr? && s == Strip(v.s);
      assert NoneIfEmpty(s) == Some(s);
    }
  }

  /** `max_marks is None or max_marks == ""`. */
  predicate MaxMarksMissing(v: Json) {
    v == JNull || v == JStr("")
  }

  /** `int(max_marks)` and the `< 1` test, with the handler's except clause. */
  function CheckMaxMarks(v: Json, overflow: OverflowHandling): (r: Result<int, Failure>)
    ensures r.Success? <==> PyInt(v).Success? && PyInt(v).value >= 1
    ensures r.Success? ==> r.value == PyInt(v).value
    ensures r.Failure? ==>
              r.error == (if PyInt(v) == Failure(OverflowError) && overflow == Uncaught then Crash
                          else BadRequest(InvalidMaxMarks))
  {
    match PyInt(v)
    case Success(n) => if n < 1 then Failure(BadRequest(InvalidMaxMarks)) else Success(n)
    case Failure(OverflowError) =>
      if overflow == Uncaught then Failure(Crash) else Failure(BadRequest(InvalidMaxMarks))
    case Failure(_) => Failure(BadRequest(InvalidMaxMarks))
  }

  /** The checks of `create_assignment` after the body is known to be an
      object, given the five values `data.get` read, in the handler's order. */
  function CheckFields(teacher: string, title: Json, description: Json, deadline: Json, maxMarks: Json, fileUrl: Json,
                       overflow: OverflowHandling): (r: Result<NewAssignment, Failure>)
    ensures r.Failure? ==> r.error.BadRequest? || r.error.Crash?
    ensures r.Success? ==>
              && r.value.teacherId == teacher
              && StrippedOrEmpty(title) == Success(r.value.title) && r.value.title != ""
              && r.value.deadline == deadline && Truthy(deadline)
              && PyInt(maxMarks) == Success(r.value.maxMarks) && r.value.maxMarks >= 1
              && StrippedOrEmpty(description).Success?
              && r.value.description == NoneIfEmpty(StrippedOrEmpty(description).value)
              && StrippedOrEmpty(fileUrl).Success?
              && r.value.fileUrl == NoneIfEmpty(StrippedOrEmpty(fileUrl).value)
              && Trimmed(r.value.description) && Trimmed(r.value.fileUrl)
  {
    var t := StrippedOrEmpty(title);
    var d := StrippedOrEmpty(description);
    var f := StrippedOrEmpty(fileUrl);
    if t.Failure? || d.Failure? || f.Failure? then Failure(Crash)
    else if t.value == "" then Failure(BadRequest(MissingTitle))
    else if !Truthy(deadline) then Failure(BadRequest(MissingDeadline))
    else if MaxMarksMissing(maxMarks) then Failure(BadRequest(MissingMaxMarks))
    else
      match CheckMaxMarks(maxMarks, overflow)
      case Failure(e) => Failure(e)
      case Success(n) =>
        StrippedIsTrimmed(description);
        StrippedIsTrimmed(fileUrl);
        Success(NewAssignment(t.value, NoneIfEmpty(d.value), teacher, deadline, n, NoneIfEmpty(f.value)))
  }

  /** The checks of `create_assignment`: a falsy body is refused, a truthy
      one that is not an object has no `get` and fails, and an object goes
      through the field checks. */
  function ValidateAssignment(teacher: string, body: Option<Json>, overflow: OverflowHandling): (r: Result<NewAssignment, Failure>)
    ensures r.Failure? ==> r.error.BadRequest? || r.error.Crash?
    ensures r.Success? ==> body.Some? && body.value.JObject?
  {
    if !HasBody(body) then Failure(BadRequest(NoBody))
    else if !body.value.JObject? then Failure(Crash)
    else
      var fields := body.value.fields;
      CheckFields(teacher, Get(fields, "title"), Get(fields, "description"), Get(fields, "deadline"),
                  Get(fields, "max_marks"), Get(fields, "file_url"), overflow)
  }

  /** `create_assignment` as written. */
  function CreateAssignmentChecks(teacher: string, body: Option<Json>): Result<NewAssignment, Failure> {
    ValidateAssignment(teacher, body, Uncaught)
  }

  /** `create_assignment` with every failure of `int()` answered 400. */
  function CreateAssignmentChecksIntended(teacher: string, body: Option<Json>): Result<NewAssignment, Failure> {
    ValidateAssignment(teacher, body, CaughtAsInvalid)
  }

  /** The 400 answers, each with its message, in the handler's order, once
      the three text fields have stripped (or defaulted to `""`). */
  lemma FieldRejections(teacher: string, title: Json, description: Json, deadline: Json, maxMarks: Json, fileUrl: Json)
    requires StrippedOrEmpty(title).Success? && StrippedOrEmpty(description).Success? && StrippedOrEmpty(fileUrl).Success?
    ensures var r := CheckFields(teacher, title, description, deadline, maxMarks, fileUrl, Uncaught);
            var t := StrippedOrEmpty(title).value;
            && (t == "" ==> r == Failure(BadRequest(MissingTitle)))
            && (t != "" && !Truthy(deadline) ==> r == Failure(BadRequest(MissingDeadline)))
            && (t != "" && Truthy(deadline) && MaxMarksMissing(maxMarks) ==> r == Failure(BadRequest(MissingMaxMarks)))
            && (t != "" && Truthy(deadline) && !MaxMarksMissing(maxMarks)
                && ((PyInt(maxMarks).Failure? && PyInt(maxMarks).error != OverflowError)
                    || (PyInt(maxMarks).Success? && PyInt(maxMarks).value < 1)) ==>
                  r == Failure(BadRequest(InvalidMaxMarks)))
  {
    var t := StrippedOrEmpty(title).value;
    if t == "" {
      RejectsAtTitle(teacher, title, description, deadline, maxMarks, fileUrl, Uncaught);
    } else if !Truthy(deadline) {
      RejectsAtDeadline(teacher, title, description, deadline, maxMarks, fileUrl, Uncaught);
    } else if MaxMarksMissing(maxMarks) {
      RejectsAtMissingMaxMarks(teacher, title, description, deadline, maxMarks, fileUrl, Uncaught);
    } else if CheckMaxMarks(maxMarks, Uncaught).Failure? {
      RejectsAtMaxMarks(teacher, title, description, deadline, maxMarks, fileUrl, Uncaught);
    }
  }

  lemma RejectsAtTitle(teacher: string, title: Json, description: Json, deadline: Json, maxMarks: Json, fileUrl: Json,
                       overflow: OverflowHandling)
    requires StrippedOrEmpty(title) == Success("")
    requires StrippedOrEmpty(description).Success? && StrippedOrEmpty(fileUrl).Success?
    ensures CheckFields(teacher, title, description, deadline, maxMarks, fileUrl, overflow) == Failure(BadRequest(MissingTitle))
  {
  }

  lemma RejectsAtDeadline(teacher: string, title: Json, description: Json, deadline: Json, maxMarks: Json, fileUrl: Json,
                          overflow: OverflowHandling)
    requires StrippedOrEmpty(title).Success? && StrippedOrEmpty(title).value != ""
    requires StrippedOrEmpty(description).Success? && StrippedOrEmpty(fileUrl).Success?
    requires !Truthy(deadline)
    ensures CheckFields(teacher, title, description, deadline, maxMarks, fileUrl, overflow) == Failure(BadRequest(MissingDeadline))
  {
  }

  lemma RejectsAtMissingMaxMarks(teacher: string, title: Json, description: Json, deadline: Json, maxMarks: Json, fileUrl: Json,
                                 overflow: OverflowHandling)
    requires StrippedOrEmpty(title).Success? && StrippedOrEmpty(title).value != ""
    requires StrippedOrEmpty(description).Success? && StrippedOrEmpty(fileUrl).Success?
    requires Truthy(deadline) && MaxMarksMissing(maxMarks)
    ensures CheckFields(teacher, title, description, deadline, maxMarks, fileUrl, overflow) == Failure(BadRequest(MissingMaxMarks))
  {
  }

  /** A missing or falsy body is refused before anything else; a truthy body
      that is not an object fails; an object body is judged by its fields. */
  lemma BodyRejections(teacher: string, body: Option<Json>)
    ensures !HasBody(body) ==> CreateAssignmentChecks(teacher, body) == Failure(BadRequest(NoBody))
    ensures HasBody(body) && !body.value.JObject? ==> CreateAssignmentChecks(teacher, body) == Failure(Crash)
    ensures HasBody(body) && body.value.JObject? ==>
              var f := body.value.fields;
              CreateAssignmentChecks(teacher, body)
              == CheckFields(teacher, Get(f, "title"), Get(f, "description"), Get(f, "deadline"),
                             Get(f, "max_marks"), Get(f, "file_url"), Uncaught)
  {
  }

  /** A padded title is stored stripped, a blank description and a missing
      file URL are stored as NULL, and `max_marks` given as the text of a
      positive integer is that integer. */
  lemma AcceptsPaddedTitleAndTextMarks(teacher: string, title: string, pad: string, deadline: string, n: int)
    requires AllSpace(pad) && title != [] && !IsSpace(title[0]) && !IsSpace(title[|title| - 1])
    requires deadline != "" && n >= 1
    ensures CheckFields(teacher, JStr(pad + title + pad), JStr(pad), JStr(deadline), JStr(IntText(n)), JNull, Uncaught)
            == Success(NewAssignment(title, None, teacher, JStr(deadline), n, None))
  {
    PaddedTextFacts(title, pad);
    TextMarksFacts(n);
    AcceptsCheckedFields(teacher, JStr(pad + title + pad), JStr(pad), JStr(deadline), JStr(IntText(n)), JNull,
                         title, "", "", n);
  }

  lemma PaddedTextFacts(title: string, pad: string)
    requires AllSpace(pad) && title != [] && !IsSpace(title[0]) && !IsSpace(title[|title| - 1])
    ensures StrippedOrEmpty(JStr(pad + title + pad)) == Success(title)
    ensures StrippedOrEmpty(JStr(pad)) == Success("")
  {
    StripPadded(pad, title, pad);
    if pad != "" {
      assert Strip(pad) == "";
    }
  }

  lemma TextMarksFacts(n: int)
    ensures PyInt(JStr(IntText(n))) == Success(n)
    ensures !MaxMarksMissing(JStr(IntText(n)))
  {
    var text := IntText(n);
    ParseIntTextRoundTrip(n);
    assert PyInt(JStr(text)) == ParseIntText(text);
    assert JStr(text) != JStr("");
  }

  /** Fields that pass every check give the INSERT exactly their converted
      values. */
  lemma AcceptsCheckedFields(teacher: string, title: Json, description: Json, deadline: Json, maxMarks: Json, fileUrl: Json,
                             t: string, d: string, f: string, n: int)
    requires StrippedOrEmpty(title) == Success(t) && t != ""
    requires StrippedOrEmpty(description) == Success(d) && StrippedOrEmpty(fileUrl) == Success(f)
    requires Truthy(deadline) && !MaxMarksMissing(maxMarks)
    requires PyInt(maxMarks) == Success(n) && n >= 1
    ensures CheckFields(teacher, title, description, deadline, maxMarks, fileUrl, Uncaught)
            == Success(NewAssignment(t, NoneIfEmpty(d), teacher, deadline, n, NoneIfEmpty(f)))
  {
  }

  /** Because Python's `bool` is an `int`, `"max_marks": true` is accepted
      as one mark and `false` is refused as not positive; a fractional
      number is truncated toward zero before the `< 1` test. */
  lemma MaxMarksConversions(teacher: string)
    ensures CheckFields(teacher, JStr("Essay"), JNull, JStr("2025-01-01"), JBool(true), JNull, Uncaught)
            == Success(NewAssignment("Essay", None, teacher, JStr("2025-01-01"), 1, None))
    ensures CheckFields(teacher, JStr("Essay"), JNull, JStr("2025-01-01"), JBool(false), JNull, Uncaught)
            == Failure(BadRequest(InvalidMaxMarks))
    ensures CheckFields(teacher, JStr("Essay"), JNull, JStr("2025-01-01"), JFloat(Finite(0.5)), JNull, Uncaught)
            == Failure(BadRequest(InvalidMaxMarks))
    ensures CheckFields(teacher, JStr("Essay"), JNull, JStr("2025-01-01"), JFloat(Finite(7.9)), JNull, Uncaught)
            == Success(NewAssignment("Essay", None, teacher, JStr("2025-01-01"), 7, None))
  {
    EssayFields();
    assert PyInt(JBool(true)) == Success(1);
    assert PyInt(JBool(false)) == Success(0);
    assert PyInt(JFloat(Finite(0.5))) == Success(0);
    assert PyInt(JFloat(Finite(7.9))) == Success(7);
  }

  lemma EssayFields()
    ensures StrippedOrEmpty(JStr("Essay")) == Success("Essay")
    ensures StrippedOrEmpty(JNull) == Success("")
    ensures Truthy(JStr("2025-01-01"))
  {
    EssayTitleStrips();
    assert !Truthy(JNull);
    assert "2025-01-01" != "";
  }

  lemma EssayTitleStrips()
    ensures StrippedOrEmpty(JStr("Essay")) == Success("Essay")
  {
    EssayStrips();
    assert Truthy(JStr("Essay"));
    assert StrippedOrEmpty(JStr("Essay")) == Success(Strip("Essay"));
  }

  lemma EssayStrips()
    ensures Strip("Essay") == "Essay"
  {
    var e := "Essay";
    assert e[0] == 'E' && e[|e| - 1] == 'y';
    StripUnpadded(e);
  }

  /** `max_marks` led by one of the separators U+001C..U+001F, which
      `int()` does not skip, is refused as not a positive number even when
      the rest is the text of a positive integer. */
  lemma RejectsSeparatorLedMaxMarks(teacher: string, c: char, n: int)
    requires '\U{1C}' <= c <= '\U{1F}'
    ensures CheckFields(teacher, JStr("Essay"), JNull, JStr("2025-01-01"), JStr([c] + IntText(n)), JNull, Uncaught)
            == Failure(BadRequest(InvalidMaxMarks))
  {
    SeparatorBlocksInt(c, n);
    EssayRejectsUnparsedText(teacher, [c] + IntText(n));
  }

  lemma EssayRejectsUnparsedText(teacher: string, text: string)
    requires text != [] && ParseIntText(text) == Failure(ValueError)
    ensures CheckFields(teacher, JStr("Essay"), JNull, JStr("2025-01-01"), JStr(text), JNull, Uncaught)
            == Failure(BadRequest(InvalidMaxMarks))
  {
    assert PyInt(JStr(text)) == ParseIntText(text);
    EssayRejectsUnparsedMarks(teacher, JStr(text));
  }

  lemma EssayRejectsUnparsedMarks(teacher: string, marks: Json)
    requires !MaxMarksMissing(marks) && PyInt(marks) == Failure(ValueError)
    ensures CheckFields(teacher, JStr("Essay"), JNull, JStr("2025-01-01"), marks, JNull, Uncaught)
            == Failure(BadRequest(InvalidMaxMarks))
  {
    EssayFields();
    RejectsAtMaxMarks(teacher, JStr("Essay"), JNull, JStr("2025-01-01"), marks, JNull, Uncaught);
  }

  /** `"max_marks": 1e400`, which Python decodes to infinity, makes the
      handler as written fail with Flask's 500 instead of 400. */
  lemma OverflowingMaxMarksCrashes(teacher: string)
    ensures CheckFields(teacher, JStr("Essay"), JNull, JStr("2025-01-01"), JFloat(PosInf), JNull, Uncaught)
            == Failure(Crash)
    ensures CheckFields(teacher, JStr("Essay"), JNull, JStr("2025-01-01"), JFloat(PosInf), JNull, CaughtAsInvalid)
            == Failure(BadRequest(InvalidMaxMarks))
  {
    EssayFields();
    assert PyInt(JFloat(PosInf)) == Failure(OverflowError);
    RejectsAtMaxMarks(teacher, JStr("Essay"), JNull, JStr("2025-01-01"), JFloat(PosInf), JNull, Uncaught);
    RejectsAtMaxMarks(teacher, JStr("Essay"), JNull, JStr("2025-01-01"), JFloat(PosInf), JNull, CaughtAsInvalid);
  }

  /** Once the title, deadline and presence checks pass, the conversion of
      `max_marks` decides a rejection. */
  lemma RejectsAtMaxMarks(teacher: string, title: Json, description: Json, deadline: Json, maxMarks: Json, fileUrl: Json,
                          overflow: OverflowHandling)
    requires StrippedOrEmpty(title).Success? && StrippedOrEmpty(title).value != ""
    requires StrippedOrEmpty(description).Success? && StrippedOrEmpty(fileUrl).Success?
    requires Truthy(deadline) && !MaxMarksMissing(maxMarks)
    requires CheckMaxMarks(maxMarks, overflow).Failure?
    ensures CheckFields(teacher, title, description, deadline, maxMarks, fileUrl, overflow)
            == Failure(CheckMaxMarks(maxMarks, overflow).error)
  {
  }

  /** The intended handler answers 400 "Maximum marks must be a positive
      number." whenever the earlier checks pass and `int()` fails, overflow
      included; it differs from the handler as written only where that one
      fails with 500 on an overflowing `max_marks`. */
  lemma IntendedRejectsEveryUnconvertibleMaxMarks(teacher: string, title: Json, description: Json, deadline: Json, maxMarks: Json, fileUrl: Json)
    ensures var intended := CheckFields(teacher, title, description, deadline, maxMarks, fileUrl, CaughtAsInvalid);
            var t := StrippedOrEmpty(title);
            (t.Success? && t.value != "" && StrippedOrEmpty(description).Success? && StrippedOrEmpty(fileUrl).Success?
             && Truthy(deadline) && !MaxMarksMissing(maxMarks) && PyInt(maxMarks).Failure?) ==>
              intended == Failure(BadRequest(InvalidMaxMarks))
    ensures var intended := CheckFields(teacher, title, description, deadline, maxMarks, fileUrl, CaughtAsInvalid);
            var written := CheckFields(teacher, title, description, deadline, maxMarks, fileUrl, Uncaught);
            intended != written ==>
              && written == Failure(Crash)
              && intended == Failure(BadRequest(InvalidMaxMarks))
              && PyInt(maxMarks) == Failure(OverflowError)
  {
  }

  // ---------------------------------------------------------------------
  // The INSERT

  /** The id `SERIAL` hands out: larger than every id already in the table. */
  function FreshAssignmentId(assignments: seq<Assignment>): (id: int)
    ensures forall k :: 0 <= k < |assignments| ==> assignments[k].id < id
  {
    if assignments == [] then 1
    else
      var earlier := FreshAssignmentId(assignments[..|assignments| - 1]);
      var last := assignments[|assignments| - 1].id;
      if earlier > last then earlier else last + 1
  }

  /** The row the INSERT adds, its deadline already cast. */
  function InsertedAssignment(assignments: seq<Assignment>, v: NewAssignment, deadline: Timestamp): Assignment {
    Assignment(FreshAssignmentId(assignments), v.teacherId, Some(v.title), v.description, Some(deadline))
  }

  datatype CreateOutcome = CreateOutcome(db: Db, response: Result<int, Failure>)

  /** The whole handler, validating with the corrected
      `CreateAssignmentChecksIntended`, which differs from the code as written
      only on an infinite `max_marks`. `toTimestamp` is the database's `::timestamp` cast
      of the decoded deadline; a value it cannot cast fails the INSERT,
      which the handler answers with 500. */
  function CreateAssignment(db: Db, teacher: string, body: Option<Json>, toTimestamp: Json -> Option<Timestamp>): (o: CreateOutcome)
    ensures o.response.Failure? ==> o.db == db
    ensures o.response.Success? ==>
              && CreateAssignmentChecksIntended(teacher, body).Success?
              && toTimestamp(CreateAssignmentChecksIntended(teacher, body).value.deadline).Some?
              && o.db == db.(assignments := db.assignments + [InsertedAssignment(db.assignments,
                               CreateAssignmentChecksIntended(teacher, body).value,
                               toTimestamp(CreateAssignmentChecksIntended(teacher, body).value.deadline).value)])
              && o.response.value == FreshAssignmentId(db.assignments)
    ensures CreateAssignmentChecksIntended(teacher, body).Success?
            && toTimestamp(CreateAssignmentChecksIntended(teacher, body).value.deadline).None? ==>
              o.response == Failure(DbError)
  {
    match CreateAssignmentChecksIntended(teacher, body)
    case Failure(e) => CreateOutcome(db, Failure(e))
    case Success(v) =>
      match toTimestamp(v.deadline)
      case None => CreateOutcome(db, Failure(DbError))
      case Some(at) =>
        var row := InsertedAssignment(db.assignments, v, at);
        CreateOutcome(db.(assignments := db.assignments + [row]), Success(row.id))
  }

  /** `assignment_id` on every submission names an existing assignment (the
      foreign key). */
  predicate SubmissionsReferenceAssignments(db: Db) {
    forall k :: 0 <= k < |db.submissions| ==> HasAssignment(db.assignments, db.submissions[k].assignmentId)
  }

  lemma WithIdOther(assignments: seq<Assignment>, a: Assignment, aid: int)
    requires aid != a.id
    ensures WithId(assignments + [a], aid) == WithId(assignments, aid)
  {
    assert (assignments + [a])[..|assignments + [a]| - 1] == assignments;
  }

  /** An assignment no submission refers to adds nothing to the inner join. */
  lemma {:induction false} InnerJoinIgnoresUnreferenced(assignments: seq<Assignment>, subs: seq<Submission>, a: Assignment)
    requires forall k :: 0 <= k < |subs| ==> subs[k].assignmentId != a.id
    ensures InnerJoin(assignments + [a], subs) == InnerJoin(assignments, subs)
  {
    if subs != [] {
      var init := subs[..|subs| - 1];
      var s := subs[|subs| - 1];
      InnerJoinIgnoresUnreferenced(assignments, init, a);
      WithIdOther(assignments, a, s.assignmentId);
    }
  }

  /** For every student, an assignment nobody has submitted to joins as one
      pending row at the end. */
  lemma StudentJoinGainsPendingRow(assignments: seq<Assignment>, subs: seq<Submission>, a: Assignment, student: string)
    requires forall k :: 0 <= k < |subs| ==> subs[k].assignmentId != a.id
    ensures StudentRoutes.Join(assignments + [a], subs, student)
            == StudentRoutes.Join(assignments, subs, student) + [StudentRoutes.JoinRow(a, None)]
  {
    assert (assignments + [a])[..|assignments + [a]| - 1] == assignments;
  }

  /** Under the foreign key, the new id is one no submission refers to. */
  lemma FreshIdUnreferenced(db: Db)
    requires SubmissionsReferenceAssignments(db)
    ensures forall k :: 0 <= k < |db.submissions| ==> db.submissions[k].assignmentId != FreshAssignmentId(db.assignments)
  {
    forall k | 0 <= k < |db.submissions|
      ensures db.submissions[k].assignmentId != FreshAssignmentId(db.assignments)
    {
      assert HasAssignment(db.assignments, db.submissions[k].assignmentId);
    }
  }

  /** The row a successful creation appended. */
  function Created(db: Db, teacher: string, body: Option<Json>, toTimestamp: Json -> Option<Timestamp>): Assignment
    requires CreateAssignment(db, teacher, body, toTimestamp).response.Success?
  {
    var v := CreateAssignmentChecksIntended(teacher, body).value;
    InsertedAssignment(db.assignments, v, toTimestamp(v.deadline).value)
  }

  /** A created assignment: the creating teacher's `total_assignments` grows
      by one while the submission counters stay, and the assignment page
      finds it under the returned id with the stripped title. */
  lemma CreateAssignmentTeacherEffect(db: Db, teacher: string, body: Option<Json>, toTimestamp: Json -> Option<Timestamp>)
    requires SubmissionsReferenceAssignments(db)
    requires CreateAssignment(db, teacher, body, toTimestamp).response.Success?
    ensures var o := CreateAssignment(db, teacher, body, toTimestamp);
            var id := o.response.value;
            var before := TeacherRoutes.TeacherCounts(db, teacher);
            var after := TeacherRoutes.TeacherCounts(o.db, teacher);
            && after.totalAssignments == before.totalAssignments + 1
            && after.received == before.received
            && after.pendingEvaluation == before.pendingEvaluation
            && after.evaluated == before.evaluated
            && AssignmentById(o.db, id).Success?
            && AssignmentById(o.db, id).value.title == CreateAssignmentChecksIntended(teacher, body).value.title
  {
    var o := CreateAssignment(db, teacher, body, toTimestamp);
    var a := Created(db, teacher, body, toTimestamp);
    assert o.db.assignments == db.assignments + [a];
    FreshIdUnreferenced(db);
    InnerJoinIgnoresUnreferenced(db.assignments, db.submissions, a);
    CountAppend(db.assignments, [a], TeacherRoutes.OwnedBy(teacher));
    CountSingle(a, TeacherRoutes.OwnedBy(teacher));
    CreatedIsFound(db, teacher, body, toTimestamp);
  }

  lemma CreatedIsFound(db: Db, teacher: string, body: Option<Json>, toTimestamp: Json -> Option<Timestamp>)
    requires CreateAssignment(db, teacher, body, toTimestamp).response.Success?
    ensures var o := CreateAssignment(db, teacher, body, toTimestamp);
            && AssignmentById(o.db, o.response.value).Success?
            && AssignmentById(o.db, o.response.value).value.title == CreateAssignmentChecksIntended(teacher, body).value.title
  {
    var o := CreateAssignment(db, teacher, body, toTimestamp);
    var a := Created(db, teacher, body, toTimestamp);
    assert o.db == db.(assignments := db.assignments + [a]);
    AppendedIsFound(db, a);
  }

  /** A row whose id exceeds every id in the table is the one the by-id
      page finds. */
  lemma AppendedIsFound(db: Db, a: Assignment)
    requires forall k :: 0 <= k < |db.assignments| ==> db.assignments[k].id < a.id
    ensures AssignmentById(db.(assignments := db.assignments + [a]), a.id)
            == Success(AssignmentDetail(a.id, OrElse(a.title, ""), "", Shown(a.deadline), OrElse(a.description, "")))
  {
    var xs := db.assignments + [a];
    assert xs[..|xs| - 1] == db.assignments;
    WithIdAbsent(db.assignments, a.id);
    assert WithId(xs, a.id) == [a];
  }

  /** A created assignment shows on every student's dashboard as one more
      pending assignment; `submitted`, `evaluated` and the results stay. */
  lemma CreateAssignmentStudentEffect(db: Db, teacher: string, body: Option<Json>, toTimestamp: Json -> Option<Timestamp>, student: string)
    requires SubmissionsReferenceAssignments(db)
    requires CreateAssignment(db, teacher, body, toTimestamp).response.Success?
    ensures var o := CreateAssignment(db, teacher, body, toTimestamp);
            var before := StudentRoutes.DashboardCounts(db, student);
            var after := StudentRoutes.DashboardCounts(o.db, student);
            && after.total == before.total + 1
            && after.pending == before.pending + 1
            && after.submitted == before.submitted
            && after.evaluated == before.evaluated
            && StudentRoutes.Results(o.db, student) == StudentRoutes.Results(db, student)
  {
    var o := CreateAssignment(db, teacher, body, toTimestamp);
    var a := Created(db, teacher, body, toTimestamp);
    assert o.db.assignments == db.assignments + [a];
    FreshIdUnreferenced(db);
    InnerJoinIgnoresUnreferenced(db.assignments, db.submissions, a);
    var rows := StudentRoutes.Join(db.assignments, db.submissions, student);
    var row := StudentRoutes.JoinRow(a, None);
    StudentJoinGainsPendingRow(db.assignments, db.submissions, a, student);
    CountAppend(rows, [row], StudentRoutes.HasSubmission);
    CountAppend(rows, [row], StudentRoutes.HasMarks);
    CountSingle(row, StudentRoutes.HasSubmission);
    CountSingle(row, StudentRoutes.HasMarks);
  }

  /** Both inserting handlers keep the foreign key: a new assignment only
      adds a target, and a new submission is inserted only when its
      assignment exists. */
  lemma ForeignKeyKept(db: Db, teacher: string, student: string, body: Option<Json>,
                       toTimestamp: Json -> Option<Timestamp>, now: Timestamp)
    requires SubmissionsReferenceAssignments(db)
    ensures SubmissionsReferenceAssignments(CreateAssignment(db, teacher, body, toTimestamp).db)
    ensures SubmissionsReferenceAssignments(StudentSubmit.Submit(db, student, body, now).db)
  {
    CreateKeepsKey(db, teacher, body, toTimestamp);
    SubmitKeepsKey(db, student, body, now);
  }

  lemma CreateKeepsKey(db: Db, teacher: string, body: Option<Json>, toTimestamp: Json -> Option<Timestamp>)
    requires SubmissionsReferenceAssignments(db)
    ensures SubmissionsReferenceAssignments(CreateAssignment(db, teacher, body, toTimestamp).db)
  {
    var c := CreateAssignment(db, teacher, body, toTimestamp).db;
    assert c.submissions == db.submissions && c.assignments[..|db.assignments|] == db.assignments;
    MoreAssignmentsKeepKey(db, c.assignments);
    assert c == db.(assignments := c.assignments);
  }

  lemma SubmitKeepsKey(db: Db, student: string, body: Option<Json>, now: Timestamp)
    requires SubmissionsReferenceAssignments(db)
    ensures SubmissionsReferenceAssignments(StudentSubmit.Submit(db, student, body, now).db)
  {
    var o := StudentSubmit.Submit(db, student, body, now).db;
    assert o.assignments == db.assignments && o.submissions[..|db.submissions|] == db.submissions;
    assert forall k :: |db.submissions| <= k < |o.submissions| ==> HasAssignment(o.assignments, o.submissions[k].assignmentId);
    OneMoreSubmissionKeepsKey(db, o.submissions);
    assert o == db.(submissions := o.submissions);
  }

  lemma MoreAssignmentsKeepKey(db: Db, assignments: seq<Assignment>)
    requires SubmissionsReferenceAssignments(db)
    requires |db.assignments| <= |assignments| && assignments[..|db.assignments|] == db.assignments
    ensures SubmissionsReferenceAssignments(db.(assignments := assignments))
  {
    forall k | 0 <= k < |db.submissions|
      ensures HasAssignment(assignments, db.submissions[k].assignmentId)
    {
      var j :| 0 <= j < |db.assignments| && db.assignments[j].id == db.submissions[k].assignmentId;
      assert assignments[j] == db.assignments[j];
    }
  }

  lemma OneMoreSubmissionKeepsKey(db: Db, subs: seq<Submission>)
    requires SubmissionsReferenceAssignments(db)
    requires |db.submissions| <= |subs| && subs[..|db.submissions|] == db.submissions
    requires forall k :: |db.submissions| <= k < |subs| ==> HasAssignment(db.assignments, subs[k].assignmentId)
    ensures SubmissionsReferenceAssignments(db.(submissions := subs))
  {
    forall k | 0 <= k < |subs|
      ensures HasAssignment(db.assignments, subs[k].assignmentId)
    {
      if k < |db.submissions| {
        assert subs[k] == db.submissions[k];
      }
    }
  }
}

=== FILE: http.dfy ===
/** The ways a request handler can end other than with its success payload. */
module Http {

  datatype Failure =
    /** 400: a required field is missing or malformed; nothing was written. */
    | BadRequest(message: string)
    /** 401: the credentials matched no account. */
    | Unauthorized(message: string)
    /** 404: the row the path names does not exist. */
    | NotFound(message: string)
    /** 500 from the handler's own `except Exception`: the database call raised. */
    | DbError
    /** 500 from Flask itself: an exception the handler does not catch. */
    | Crash

  /** The HTTP status code each failure is answered with. */
  function Code(f: Failure): (code: int)
    ensures 400 <= code < 600
    ensures code == 500 <==> (f.DbError? || f.Crash?)
  {
    match f
    case BadRequest(_) => 400
    case Unauthorized(_) => 401
    case NotFound(_) => 404
    case DbError => 500
    case Crash => 500
  }
}

=== FILE: join.dfy ===
/**
 * `submissions s JOIN assignments a ON a.assignment_id = s.assignment_id`,
 * the inner join under the results list, the teacher's counters and lists,
 * and the single-submission lookup. Each of those is this join followed by
 * its own `WHERE`.
 */
module SubmissionJoin {
  import opened Wrappers
  import opened Tables
  import opened Counting

  /** One row of the join. */
  datatype Joined = Joined(submission: Submission, assignment: Assignment)

  /** The assignments with id `aid`, in table order. */
  function WithId(assignments: seq<Assignment>, aid: int): (r: seq<Assignment>)
    ensures |r| <= |assignments|
    ensures forall k :: 0 <= k < |r| ==> r[k].id == aid && r[k] in assignments
    ensures forall k :: 0 <= k < |assignments| && assignments[k].id == aid ==> assignments[k] in r
  {
    if assignments == [] then []
    else
      var init := assignments[..|assignments| - 1];
      var a := assignments[|assignments| - 1];
      assert assignments == init + [a];
      if a.id == aid then WithId(init, aid) + [a] else WithId(init, aid)
  }

  /** Submission `s` joined with each of the assignments `matches`. */
  function JoinedWith(s: Submission, matches: seq<Assignment>): (r: seq<Joined>)
    ensures |r| == |matches|
    ensures forall k :: 0 <= k < |r| ==> r[k] == Joined(s, matches[k])
  {
    if matches == [] then [] else JoinedWith(s, matches[..|matches| - 1]) + [Joined(s, matches[|matches| - 1])]
  }

  /** The join, submission by submission. */
  function InnerJoin(assignments: seq<Assignment>, subs: seq<Submission>): (r: seq<Joined>)
    ensures forall k :: 0 <= k < |r| ==>
              && r[k].submission in subs
              && r[k].assignment in assignments
              && r[k].assignment.id == r[k].submission.assignmentId
  {
    if subs == [] then []
    else
      var init := subs[..|subs| - 1];
      var s := subs[|subs| - 1];
      assert subs == init + [s];
      InnerJoin(assignments, init) + JoinedWith(s, WithId(assignments, s.assignmentId))
  }

  lemma InnerJoinStep(assignments: seq<Assignment>, subs: seq<Submission>, s: Submission)
    ensures InnerJoin(assignments, subs + [s]) == InnerJoin(assignments, subs) + JoinedWith(s, WithId(assignments, s.assignmentId))
  {
    assert (subs + [s])[..|subs + [s]| - 1] == subs;
  }

  /** Every submission whose assignment exists meets it in the join. */
  lemma {:induction false} InnerJoinContains(assignments: seq<Assignment>, subs: seq<Submission>, s: Submission, a: Assignment)
    requires s in subs && a in assignments && a.id == s.assignmentId
    ensures Joined(s, a) in InnerJoin(assignments, subs)
  {
    var init := subs[..|subs| - 1];
    var last := subs[|subs| - 1];
    assert subs == init + [last];
    if s == last {
      var matches := WithId(assignments, s.assignmentId);
      var i :| 0 <= i < |assignments| && assignments[i] == a;
      assert a in matches;
      var j :| 0 <= j < |matches| && matches[j] == a;
      assert JoinedWith(s, matches)[j] == Joined(s, a);
    } else {
      assert s in init;
      InnerJoinContains(assignments, init, s, a);
    }
  }

  /** The assignment table has a row with this id. */
  predicate HasAssignment(assignments: seq<Assignment>, aid: int) {
    exists k :: 0 <= k < |assignments| && assignments[k].id == aid
  }

  lemma {:induction false} WithIdAbsent(assignments: seq<Assignment>, aid: int)
    requires forall k :: 0 <= k < |assignments| ==> assignments[k].id != aid
    ensures WithId(assignments, aid) == []
  {
    if assignments != [] {
      WithIdAbsent(assignments[..|assignments| - 1], aid);
    }
  }

  /** With `assignment_id` a primary key, an id matches one row if any. */
  lemma {:induction false} UniqueWithId(assignments: seq<Assignment>, aid: int)
    requires UniqueAssignmentIds(assignments)
    ensures |WithId(assignments, aid)| == if HasAssignment(assignments, aid) then 1 else 0
  {
    if assignments == [] {
    } else {
      var init := assignments[..|assignments| - 1];
      var a := assignments[|assignments| - 1];
      assert assignments == init + [a];
      assert UniqueAssignmentIds(init);
      if a.id == aid {
        assert forall k :: 0 <= k < |init| ==> init[k].id != aid by {
          forall k | 0 <= k < |init|
            ensures init[k].id != aid
          {
            assert init[k] == assignments[k];
          }
        }
        WithIdAbsent(init, aid);
      } else {
        UniqueWithId(init, aid);
        assert HasAssignment(assignments, aid) == HasAssignment(init, aid) by {
          if HasAssignment(assignments, aid) {
            var k :| 0 <= k < |assignments| && assignments[k].id == aid;
            assert k < |init| && init[k].id == aid;
          }
          if HasAssignment(init, aid) {
            var k :| 0 <= k < |init| && init[k].id == aid;
            assert assignments[k].id == aid;
          }
        }
      }
    }
  }
}

=== FILE: lookups.dfy ===
/**
 * The single-row lookups: the navbar `info` and the `profile` of a student
 * or a teacher, and `GET /assignment/<id>`. Each selects by primary key and
 * answers 404 when `fetchone()` finds nothing.
 */
module Lookups {
  import opened Wrappers
  import opened Tables
  import opened Http
  import opened SubmissionJoin

  /** Python's `v or fallback` on a nullable text column. */
  function OrElse(v: Option<string>, fallback: string): (r: string)
    ensures v.Some? && v.value != "" ==> r == v.value
    ensures v.None? || v.value == "" ==> r == fallback
    ensures r == "" ==> fallback == ""
  {
    if v.Some? && v.value != "" then v.value else fallback
  }

  /** `WHERE <id column> = <id>` on `students` or `teachers`, in table order. */
  function WithPersonId(people: seq<Person>, id: string): (r: seq<Person>)
    ensures |r| <= |people|
    ensures forall k :: 0 <= k < |r| ==> r[k].id == id && r[k] in people
    ensures forall k :: 0 <= k < |people| && people[k].id == id ==> people[k] in r
  {
    if people == [] then []
    else
      var init := people[..|people| - 1];
      var p := people[|people| - 1];
      assert people == init + [p];
      if p.id == id then WithPersonId(init, id) + [p] else WithPersonId(init, id)
  }

  lemma {:induction false} WithPersonIdAbsent(people: seq<Person>, id: string)
    requires forall k :: 0 <= k < |people| ==> people[k].id != id
    ensures WithPersonId(people, id) == []
  {
    if people != [] {
      WithPersonIdAbsent(people[..|people| - 1], id);
    }
  }

  /** With the id column a primary key, a lookup finds at most one row, and
      it finds `people[k]` when that row has the id. */
  lemma {:induction false} UniqueWithPersonId(people: seq<Person>, id: string)
    requires UniquePersonIds(people)
    ensures |WithPersonId(people, id)| <= 1
    ensures forall k :: 0 <= k < |people| && people[k].id == id ==> WithPersonId(people, id) == [people[k]]
  {
    if people != [] {
      var init := people[..|people| - 1];
      var p := people[|people| - 1];
      assert people == init + [p];
      assert UniquePersonIds(init);
      UniqueWithPersonId(init, id);
      if p.id == id {
        assert forall k :: 0 <= k < |init| ==> init[k].id != id by {
          forall k | 0 <= k < |init|
            ensures init[k].id != id
          {
            assert init[k] == people[k];
          }
        }
        WithPersonIdAbsent(init, id);
      } else {
        forall k | 0 <= k < |people| && people[k].id == id
          ensures WithPersonId(people, id) == [people[k]]
        {
          assert k < |init| && init[k] == people[k];
        }
      }
    }
  }

  /** What `info` and `profile` return. */
  datatype PersonView = PersonView(id: string, name: string, email: string)

  /** `info` falls back to the path id for a missing name; `profile` to `""`. */
  datatype NameFallback = ToPathId | ToEmpty

  function FallbackText(f: NameFallback, pathId: string): string {
    match f
    case ToPathId => pathId
    case ToEmpty => ""
  }

  /** `SELECT <id>, name, email ... WHERE <id> = <path id>` and `fetchone()`:
      404 with `notFound` when no row has the id; otherwise the first such
      row, its NULL or empty name replaced by the fallback and its NULL or
      empty email by `""`. */
  function PersonLookup(people: seq<Person>, pathId: string, notFound: string, fallback: NameFallback): (r: Result<PersonView, Failure>)
    ensures r.Failure? <==> forall k :: 0 <= k < |people| ==> people[k].id != pathId
    ensures r.Failure? ==> r.error == NotFound(notFound)
    ensures r.Success? ==>
              && r.value.id == pathId
              && exists k :: 0 <= k < |people| && people[k].id == pathId
                              && r.value.name == OrElse(people[k].name, FallbackText(fallback, pathId))
                              && r.value.email == OrElse(people[k].email, "")
  {
    var found := WithPersonId(people, pathId);
    if found == [] then
      Failure(NotFound(notFound))
    else
      var p := found[0];
      assert p in people;
      Success(PersonView(p.id, OrElse(p.name, FallbackText(fallback, pathId)), OrElse(p.email, "")))
  }

  function StudentInfo(db: Db, studentId: string): Result<PersonView, Failure> {
    PersonLookup(db.students, studentId, "Student not found.", ToPathId)
  }

  function StudentProfile(db: Db, studentId: string): Result<PersonView, Failure> {
    PersonLookup(db.students, studentId, "Student not found.", ToEmpty)
  }

  function TeacherInfo(db: Db, teacherId: string): Result<PersonView, Failure> {
    PersonLookup(db.teachers, teacherId, "Teacher not found.", ToPathId)
  }

  function TeacherProfile(db: Db, teacherId: string): Result<PersonView, Failure> {
    PersonLookup(db.teachers, teacherId, "Teacher not found.", ToEmpty)
  }

  /** With the id column a primary key, the lookup returns exactly the row
      with the id; `info` and `profile` differ only in a missing name, which
      `info` shows as the id and `profile` as `""`. */
  lemma PersonLookupFindsTheRow(people: seq<Person>, k: int, notFound: string)
    requires UniquePersonIds(people) && 0 <= k < |people|
    ensures var p := people[k];
            && PersonLookup(people, p.id, notFound, ToPathId)
               == Success(PersonView(p.id, OrElse(p.name, p.id), OrElse(p.email, "")))
            && PersonLookup(people, p.id, notFound, ToEmpty)
               == Success(PersonView(p.id, OrElse(p.name, ""), OrElse(p.email, "")))
  {
    UniqueWithPersonId(people, people[k].id);
  }

  /** `GET /assignment/<id>`. `subject` is never selected, so it is `""`. */
  datatype AssignmentDetail = AssignmentDetail(
    id: int,
    title: string,
    subject: string,
    deadline: ShownTime,
    description: string)

  function AssignmentById(db: Db, id: int): (r: Result<AssignmentDetail, Failure>)
    ensures r.Failure? <==> !HasAssignment(db.assignments, id)
    ensures r.Failure? ==> r.error == NotFound("Assignment not found.")
    ensures r.Success? ==>
              && r.value.id == id && r.value.subject == ""
              && exists k :: 0 <= k < |db.assignments| && db.assignments[k].id == id
                              && r.value.title == OrElse(db.assignments[k].title, "")
                              && r.value.deadline == Shown(db.assignments[k].deadline)
                              && r.value.description == OrElse(db.assignments[k].description, "")
  {
    var found := WithId(db.assignments, id);
    if found == [] then
      assert !HasAssignment(db.assignments, id);
      Failure(NotFound("Assignment not found."))
    else
      var a := found[0];
      assert a in db.assignments;
      Success(AssignmentDetail(a.id, OrElse(a.title, ""), "", Shown(a.deadline), OrElse(a.description, "")))
  }
}

=== FILE: ordering.dfy ===
/**
 * `ORDER BY key ASC|DESC NULLS LAST` followed by an optional `LIMIT n`.
 * SQL leaves the order of rows with equal keys open; `SortBy` is one
 * admissible order (a stable insertion sort). The listing lemmas state only
 * what every admissible order shares: the rows are sorted and are the
 * query's rows (`SortedBy` and `multiset`), and a limited listing is a
 * top-`n` selection (`IsTopRows`). Which of several rows with equal keys
 * come first, and hence which of them a `LIMIT` keeps, is not stated.
 */
module Ordering {
  import opened Wrappers

  datatype Direction = Ascending | Descending

  /** Row key `x` may come before row key `y`: NULL keys go last in both directions. */
  predicate Precedes(d: Direction, x: Option<int>, y: Option<int>) {
    match (x, y)
    case (Some(a), Some(b)) => if d == Ascending then a <= b else a >= b
    case (Some(_), None) => true
    case (None, None) => true
    case (None, Some(_)) => false
  }

  lemma PrecedesTotal(d: Direction, x: Option<int>, y: Option<int>)
    ensures Precedes(d, x, y) || Precedes(d, y, x)
  {
  }

  lemma PrecedesTransitive(d: Direction, x: Option<int>, y: Option<int>, z: Option<int>)
    requires Precedes(d, x, y) && Precedes(d, y, z)
    ensures Precedes(d, x, z)
  {
  }

  /** Every row's key may precede every later row's key. */
  predicate SortedBy<T>(xs: seq<T>, key: T -> Option<int>, d: Direction) {
    forall i, j :: 0 <= i < j < |xs| ==> Precedes(d, key(xs[i]), key(xs[j]))
  }

  /** Inserts `x` before the first row it may precede. */
  function Insert<T>(x: T, xs: seq<T>, key: T -> Option<int>, d: Direction): (r: seq<T>)
    requires SortedBy(xs, key, d)
    ensures SortedBy(r, key, d)
    ensures multiset(r) == multiset(xs) + multiset{x}
    ensures |r| == |xs| + 1
    ensures r[0] == x || (xs != [] && r[0] == xs[0])
  {
    if xs == [] then [x]
    else if Precedes(d, key(x), key(xs[0])) then
      assert forall j :: 0 <= j < |xs| ==> Precedes(d, key(x), key(xs[j])) by {
        forall j | 0 <= j < |xs|
          ensures Precedes(d, key(x), key(xs[j]))
        {
          if j > 0 {
            PrecedesTransitive(d, key(x), key(xs[0]), key(xs[j]));
          }
        }
      }
      [x] + xs
    else
      PrecedesTotal(d, key(x), key(xs[0]));
      var tail := xs[1..];
      assert SortedBy(tail, key, d);
      var rest := Insert(x, tail, key, d);
      var r := [xs[0]] + rest;
      assert xs == [xs[0]] + tail;
      HeadPrecedesRest(x, xs, rest, key, d);
      r
  }

  /** The head of a sorted list may precede every row of its tail with `x`
      inserted, when it may precede `x`. */
  lemma HeadPrecedesRest<T>(x: T, xs: seq<T>, rest: seq<T>, key: T -> Option<int>, d: Direction)
    requires xs != [] && SortedBy(xs, key, d) && Precedes(d, key(xs[0]), key(x))
    requires multiset(rest) == multiset(xs[1..]) + multiset{x}
    ensures forall j :: 0 <= j < |rest| ==> Precedes(d, key(xs[0]), key(rest[j]))
  {
    forall j | 0 <= j < |rest|
      ensures Precedes(d, key(xs[0]), key(rest[j]))
    {
      assert rest[j] in multiset(rest);
      if rest[j] != x {
        assert rest[j] in multiset(xs[1..]);
        var m :| 0 <= m < |xs[1..]| && xs[1..][m] == rest[j];
        assert xs[m + 1] == rest[j];
      }
    }
  }

  /** The rows in an order `ORDER BY` admits: the same rows, sorted. */
  function SortBy<T>(xs: seq<T>, key: T -> Option<int>, d: Direction): (r: seq<T>)
    ensures SortedBy(r, key, d)
    ensures multiset(r) == multiset(xs)
    ensures |r| == |xs|
  {
    if xs == [] then []
    else
      var init := xs[..|xs| - 1];
      assert xs == init + [xs[|xs| - 1]];
      Insert(xs[|xs| - 1], SortBy(init, key, d), key, d)
  }

  /** Sorting neither adds nor drops a row. */
  lemma SortByMembers<T>(xs: seq<T>, key: T -> Option<int>, d: Direction)
    ensures forall x :: x in SortBy(xs, key, d) <==> x in xs
  {
    var r := SortBy(xs, key, d);
    forall x
      ensures x in r <==> x in xs
    {
      assert x in r <==> x in multiset(r);
      assert x in xs <==> x in multiset(xs);
    }
  }

  /** `LIMIT n`: the first `n` rows, or all of them when there are fewer. */
  function Limit<T>(xs: seq<T>, n: nat): (r: seq<T>)
    ensures |r| <= n && |r| <= |xs|
    ensures r == xs[..|r|]
    ensures |xs| <= n ==> r == xs
    ensures |xs| > n ==> |r| == n
  {
    if |xs| <= n then xs else xs[..n]
  }

  /** What `ORDER BY … LIMIT n` may return for the rows `xs`, whatever order
      it gives rows with equal keys: `n` of the rows (all of them when there
      are fewer), sorted, and no row left out has a key that must come
      before the key of a row shown. */
  ghost predicate IsTopRows<T>(shown: seq<T>, xs: seq<T>, n: nat, key: T -> Option<int>, d: Direction) {
    && |shown| == (if |xs| <= n then |xs| else n)
    && multiset(shown) <= multiset(xs)
    && SortedBy(shown, key, d)
    && forall y, x :: y in shown && x in multiset(xs) - multiset(shown) ==> Precedes(d, key(y), key(x))
  }

  /** Sorting then cutting at `n` is a top-`n` selection, and keeps every
      row when there are at most `n`. */
  lemma LimitIsTopRows<T>(xs: seq<T>, n: nat, key: T -> Option<int>, d: Direction)
    ensures IsTopRows(Limit(SortBy(xs, key, d), n), xs, n, key, d)
    ensures |xs| <= n ==> multiset(Limit(SortBy(xs, key, d), n)) == multiset(xs)
  {
    PrefixIsTopRows(SortBy(xs, key, d), xs, n, key, d);
  }

  /** The first `n` rows of any sorted arrangement of `xs` are a top-`n`
      selection of `xs`. */
  lemma PrefixIsTopRows<T>(s: seq<T>, xs: seq<T>, n: nat, key: T -> Option<int>, d: Direction)
    requires SortedBy(s, key, d) && multiset(s) == multiset(xs)
    ensures IsTopRows(Limit(s, n), xs, n, key, d)
    ensures |xs| <= n ==> multiset(Limit(s, n)) == multiset(xs)
  {
    var shown := Limit(s, n);
    var rest := s[|shown|..];
    assert |s| == |xs| by {
      assert |multiset(s)| == |multiset(xs)|;
    }
    assert s == shown + rest;
    assert multiset(xs) - multiset(shown) == multiset(rest);
    SortedSplit(s, |shown|, key, d);
  }

  /** In a sorted listing, every row before position `m` may precede every
      row from `m` on. */
  lemma SortedSplit<T>(s: seq<T>, m: nat, key: T -> Option<int>, d: Direction)
    requires SortedBy(s, key, d) && m <= |s|
    ensures forall y, x :: y in s[..m] && x in multiset(s[m..]) ==> Precedes(d, key(y), key(x))
  {
    forall y, x | y in s[..m] && x in multiset(s[m..])
      ensures Precedes(d, key(y), key(x))
    {
      var j :| 0 <= j < |s[m..]| && s[m..][j] == x;
      var i :| 0 <= i < m && s[..m][i] == y;
      assert s[i] == y && s[m + j] == x;
    }
  }

  /** A prefix of a sorted listing is sorted. */
  lemma LimitKeepsOrder<T>(xs: seq<T>, n: nat, key: T -> Option<int>, d: Direction)
    requires SortedBy(xs, key, d)
    ensures SortedBy(Limit(xs, n), key, d)
  {
  }
}

=== FILE: pyjson.dfy ===
/**
 * A request body as Python's `json` module decodes it, and the few Python
 * operations the handlers apply to it: truth value, `dict.get`, `str.strip`,
 * ASCII `str.lower` and the built-in `int()`.
 */
module PyJson {
  import opened Wrappers

  /** A JSON number with a fraction or exponent decodes to a Python float;
      `1e400` overflows to infinity and `NaN` is accepted as a literal. */
  datatype Float = Finite(r: real) | PosInf | NegInf | NaN

  datatype Json =
    | JNull
    | JBool(b: bool)
    | JInt(i: int)
    | JFloat(f: Float)
    | JStr(s: string)
    | JArray(items: seq<Json>)
    | JObject(fields: map<string, Json>)

  /** The exceptions the modelled Python operations can raise. */
  datatype PyError = AttributeError | TypeError | ValueError | OverflowError

  /** Python's truth value `bool(v)`: None, False, zero and empty containers are false. */
  predicate Truthy(v: Json) {
    match v
    case JNull => false
    case JBool(b) => b
    case JInt(i) => i != 0
    case JFloat(f) => f != Finite(0.0)
    case JStr(s) => s != ""
    case JArray(items) => items != []
    case JObject(fields) => fields != map[]
  }

  /** `request.get_json()` produced a truthy value. None stands for a call
      that returned None; a body Flask itself refuses never reaches the
      handlers. */
  predicate HasBody(body: Option<Json>) {
    body.Some? && Truthy(body.value)
  }

  /** `d.get(key)`: a missing key reads as None. */
  function Get(fields: map<string, Json>, key: string): (v: Json)
    ensures key !in fields ==> v == JNull
    ensures key in fields ==> v == fields[key]
  {
    if key in fields then fields[key] else JNull
  }

  // ---------------------------------------------------------------------
  // Whitespace and str.strip()

  /** `str.isspace()` for one character: the characters `str.strip()` removes. */
  predicate IsSpace(c: char) {
    || c == ' '
    || ('\t' <= c <= '\r')
    || ('\U{1C}' <= c <= '\U{1F}')
    || c == '\U{85}'
    || c == '\U{A0}'
    || c == '\U{1680}'
    || ('\U{2000}' <= c <= '\U{200A}')
    || c == '\U{2028}'
    || c == '\U{2029}'
    || c == '\U{202F}'
    || c == '\U{205F}'
    || c == '\U{3000}'
  }

  /** The whitespace `int()` skips around its digits. CPython turns every
      non-ASCII whitespace character into a space and then skips only ASCII
      whitespace, so the separators U+001C to U+001F, which `str.isspace()`
      accepts, are not skipped. */
  predicate IsIntSpace(c: char) {
    IsSpace(c) && !('\U{1C}' <= c <= '\U{1F}')
  }

  /** Every character of `s` is whitespace in the sense of `ws`. */
  predicate AllOf(s: string, ws: char -> bool) {
    forall k :: 0 <= k < |s| ==> ws(s[k])
  }

  predicate AllSpace(s: string) {
    AllOf(s, IsSpace)
  }

  /** Drops the leading `ws` characters: a suffix of `s`, with every dropped
      character one of them. */
  function TrimStart(s: string, ws: char -> bool): (r: string)
    ensures |r| <= |s| && r == s[|s| - |r|..]
    ensures AllOf(s[..|s| - |r|], ws)
    ensures r == [] || !ws(r[0])
  {
    if |s| > 0 && ws(s[0]) then
      var r := TrimStart(s[1..], ws);
      assert s[..|s| - |r|] == [s[0]] + s[1..][..|s[1..]| - |r|];
      r
    else s
  }

  /** Drops the trailing `ws` characters: a prefix of `s`, with every dropped
      character one of them. */
  function TrimEnd(s: string, ws: char -> bool): (r: string)
    ensures |r| <= |s| && r == s[..|r|]
    ensures AllOf(s[|r|..], ws)
    ensures r == [] || !ws(r[|r| - 1])
  {
    if |s| > 0 && ws(s[|s| - 1]) then
      var r := TrimEnd(s[..|s| - 1], ws);
      assert s[|r|..] == s[..|s| - 1][|r|..] + [s[|s| - 1]];
      r
    else s
  }

  /** Drops the `ws` characters at both ends: empty exactly when `s` is all
      such characters, and otherwise a part of `s` bounded by other ones. */
  function StripBy(s: string, ws: char -> bool): (r: string)
    ensures |r| <= |s|
    ensures r == [] <==> AllOf(s, ws)
    ensures r != [] ==> !ws(r[0]) && !ws(r[|r| - 1]) && r[0] in s
  {
    var t := TrimStart(s, ws);
    var r := TrimEnd(t, ws);
    assert t != [] ==> !ws(s[|s| - |t|]) by {
      if t != [] {
        assert s[|s| - |t|] == t[0];
      }
    }
    assert r == [] ==> AllOf(s, ws) by {
      if r == [] {
        assert t == t[|r|..];
        assert s == s[..|s| - |t|] + t;
      }
    }
    assert r != [] ==> !ws(r[0]) && r[0] in s by {
      if r != [] {
        assert r[0] == t[0] == s[|s| - |t|];
      }
    }
    r
  }

  /** Padding on both sides of a string whose ends are not padding is
      exactly what `StripBy` removes. */
  lemma {:induction false} StripByPadded(p: string, w: string, q: string, ws: char -> bool)
    requires AllOf(p, ws) && AllOf(q, ws)
    requires w != [] && !ws(w[0]) && !ws(w[|w| - 1])
    ensures StripBy(p + w + q, ws) == w
  {
    assert p + w + q == p + (w + q);
    TrimStartPadded(p, w + q, ws);
    TrimEndPadded(w, q, ws);
  }

  lemma {:induction false} TrimStartPadded(p: string, rest: string, ws: char -> bool)
    requires AllOf(p, ws)
    requires rest != [] && !ws(rest[0])
    ensures TrimStart(p + rest, ws) == rest
  {
    if p != [] {
      assert (p + rest)[1..] == p[1..] + rest;
      TrimStartPadded(p[1..], rest, ws);
    }
  }

  lemma {:induction false} TrimEndPadded(w: string, q: string, ws: char -> bool)
    requires AllOf(q, ws)
    requires w != [] && !ws(w[|w| - 1])
    ensures TrimEnd(w + q, ws) == w
  {
    if q != [] {
      assert (w + q)[..|w + q| - 1] == w + q[..|q| - 1];
      TrimEndPadded(w, q[..|q| - 1], ws);
    }
  }

  /** `s.strip()`: empty exactly when `s` is all whitespace, and otherwise
      bounded by non-whitespace characters. */
  function Strip(s: string): (r: string)
    ensures |r| <= |s|
    ensures r == [] <==> AllSpace(s)
    ensures r != [] ==> !IsSpace(r[0]) && !IsSpace(r[|r| - 1])
  {
    var r := StripBy(s, IsSpace);
    assert AllSpace(s) == AllOf(s, IsSpace);
    r
  }

  /** Whitespace on both sides of a string with non-whitespace ends is
      exactly what `strip()` removes. */
  lemma StripPadded(p: string, w: string, q: string)
    requires AllSpace(p) && AllSpace(q)
    requires w != [] && !IsSpace(w[0]) && !IsSpace(w[|w| - 1])
    ensures Strip(p + w + q) == w
  {
    StripByPadded(p, w, q, IsSpace);
  }

  /** Stripping twice is stripping once. */
  lemma StripIdempotent(s: string)
    ensures Strip(Strip(s)) == Strip(s)
  {
    if Strip(s) != [] {
      StripUnpadded(Strip(s));
    }
  }

  /** `(v or "").strip()`: a falsy value reads as the empty string, a string is
      stripped, and any other truthy value has no `strip` method. */
  function StrippedOrEmpty(v: Json): (r: Result<string, PyError>)
    ensures r.Failure? <==> Truthy(v) && !v.JStr?
    ensures r.Failure? ==> r.error == AttributeError
    ensures !Truthy(v) ==> r == Success("")
    ensures v.JStr? ==> r == Success(Strip(v.s))
  {
    if !Truthy(v) then Success("")
    else if v.JStr? then Success(Strip(v.s))
    else Failure(AttributeError)
  }

  // ---------------------------------------------------------------------
  // Lowercasing

  function LowerChar(c: char): char {
    if 'A' <= c <= 'Z' then (c as int + 32) as char else c
  }

  /** `s.lower()` on the ASCII letters; every other character is kept. */
  function LowerAscii(s: string): (r: string)
    ensures |r| == |s|
    ensures forall k :: 0 <= k < |s| ==> r[k] == LowerChar(s[k])
  {
    if s == [] then [] else [LowerChar(s[0])] + LowerAscii(s[1..])
  }

  lemma {:induction false} LowerAsciiAppend(a: string, b: string)
    ensures LowerAscii(a + b) == LowerAscii(a) + LowerAscii(b)
  {
    var x, la, lb := LowerAscii(a + b), LowerAscii(a), LowerAscii(b);
    assert |x| == |la + lb|;
    forall k | 0 <= k < |x|
      ensures x[k] == (la + lb)[k]
    {
      if k < |a| {
        assert (a + b)[k] == a[k] && (la + lb)[k] == la[k];
      } else {
        assert (a + b)[k] == b[k - |a|] && (la + lb)[k] == lb[k - |a|];
      }
    }
  }

  // ---------------------------------------------------------------------
  // int()

  predicate IsDigit(c: char) {
    '0' <= c <= '9'
  }

  /** Decimal digits, with single underscores allowed between two digits. */
  predicate IsDigitRun(s: string) {
    && |s| > 0
    && IsDigit(s[0])
    && IsDigit(s[|s| - 1])
    && (forall k :: 0 <= k < |s| ==> IsDigit(s[k]) || s[k] == '_')
    && (forall k :: 0 <= k < |s| - 1 ==> IsDigit(s[k]) || IsDigit(s[k + 1]))
  }

  /** The number a run of digits and underscores spells, underscores ignored. */
  function DigitsValue(s: string): nat
    requires forall k :: 0 <= k < |s| ==> IsDigit(s[k]) || s[k] == '_'
  {
    if s == [] then 0
    else
      assert IsDigit(s[|s| - 1]) || s[|s| - 1] == '_';
      if s[|s| - 1] == '_' then DigitsValue(s[..|s| - 1])
    else DigitsValue(s[..|s| - 1]) * 10 + (s[|s| - 1] as int - '0' as int)
  }

  /** The whitespace `int()` strips before it reads a sign and digits. */
  function IntStrip(s: string): (r: string)
    ensures r == [] <==> AllOf(s, IsIntSpace)
    ensures r != [] ==> !IsIntSpace(r[0]) && !IsIntSpace(r[|r| - 1]) && r[0] in s
  {
    StripBy(s, IsIntSpace)
  }

  /** `int(s)` for a string, base 10: surrounding whitespace, an optional
      sign, then a run of digits; anything else raises ValueError. */
  function ParseIntText(s: string): (r: Result<int, PyError>)
    ensures r.Failure? ==> r.error == ValueError
    ensures AllSpace(s) ==> r.Failure?
  {
    var t := IntStrip(s);
    assert AllSpace(s) && t != [] ==> IsSpace(t[0]);
    ParseSigned(t)
  }

  /** An optional sign, then a run of digits. */
  function ParseSigned(t: string): (r: Result<int, PyError>)
    ensures r.Failure? ==> r.error == ValueError
    ensures r.Success? ==> t != [] && (IsDigit(t[0]) || t[0] == '-' || t[0] == '+')
  {
    if |t| > 0 && (t[0] == '-' || t[0] == '+') then
      if IsDigitRun(t[1..]) then
        var n: int := DigitsValue(t[1..]);
        Success(if t[0] == '-' then -n else n)
      else Failure(ValueError)
    else if IsDigitRun(t) then Success(DigitsValue(t))
    else Failure(ValueError)
  }

  /** Decimal text of a natural number, without leading zeros. */
  function NatText(n: nat): (s: string)
    ensures s != [] && IsDigit(s[0]) && IsDigit(s[|s| - 1])
    ensures forall k :: 0 <= k < |s| ==> IsDigit(s[k])
  {
    var d := ['0' + ((n % 10) as char)];
    if n < 10 then d else NatText(n / 10) + d
  }

  /** Decimal text of an integer, as Python's `str(n)` writes it. */
  function IntText(n: int): (s: string)
    ensures s != []
  {
    if n < 0 then "-" + NatText(-n) else NatText(n)
  }

  lemma {:induction false} NatTextValue(n: nat)
    ensures DigitsValue(NatText(n)) == n
  {
    var s := NatText(n);
    if n >= 10 {
      NatTextValue(n / 10);
      assert s[..|s| - 1] == NatText(n / 10);
    }
  }

  /** `int(str(n)) == n`: the textual form of every integer parses back to it. */
  lemma ParseIntTextRoundTrip(n: int)
    ensures ParseIntText(IntText(n)) == Success(n)
  {
    var s := IntText(n);
    var m: nat := if n < 0 then -n else n;
    var d := NatText(m);
    NatTextValue(m);
    assert IsDigitRun(d);
    IntTextEnds(n);
    IntStripUnpadded(s);
    if n < 0 {
      assert s[1..] == d;
      assert ParseIntText(s) == Success(-(DigitsValue(d) as int));
    } else {
      assert s == d;
      assert !(s[0] == '-' || s[0] == '+');
    }
  }

  /** The text of an integer starts with `-` or a digit and ends with a
      digit, so neither end is whitespace of either kind. */
  lemma IntTextEnds(n: int)
    ensures var s := IntText(n);
            && (s[0] == '-' || IsDigit(s[0])) && IsDigit(s[|s| - 1])
            && !IsSpace(s[0]) && !IsSpace(s[|s| - 1])
  {
    var m: nat := if n < 0 then -n else n;
    assert IntText(n)[|IntText(n)| - 1] == NatText(m)[|NatText(m)| - 1];
  }

  /** `int()` ignores the whitespace it skips around the text of an integer. */
  lemma ParsePaddedIntText(p: string, n: int, q: string)
    requires AllOf(p, IsIntSpace) && AllOf(q, IsIntSpace)
    ensures ParseIntText(p + IntText(n) + q) == Success(n)
  {
    var s := IntText(n);
    IntTextEnds(n);
    StripByPadded(p, s, q, IsIntSpace);
    IntStripUnpadded(s);
    SameStripSameInt(p + s + q, s);
    ParseIntTextRoundTrip(n);
  }

  /** The separators U+001C to U+001F are whitespace to `strip()` but not to
      `int()`: in front of the text of an integer, `strip()` removes one
      while `int()` raises ValueError. */
  lemma SeparatorBlocksInt(c: char, n: int)
    requires '\U{1C}' <= c <= '\U{1F}'
    ensures Strip([c] + IntText(n)) == IntText(n)
    ensures ParseIntText([c] + IntText(n)) == Failure(ValueError)
  {
    IntTextEnds(n);
    SeparatorStripped(c, IntText(n));
    SeparatorKept(c, IntText(n));
  }

  lemma SeparatorStripped(c: char, s: string)
    requires '\U{1C}' <= c <= '\U{1F}'
    requires s != [] && !IsSpace(s[0]) && !IsSpace(s[|s| - 1])
    ensures Strip([c] + s) == s
  {
    assert AllSpace([c]) && AllSpace([]);
    StripPadded([c], s, []);
    assert [c] + s + [] == [c] + s;
  }

  lemma SeparatorKept(c: char, s: string)
    requires '\U{1C}' <= c <= '\U{1F}'
    requires s != [] && !IsSpace(s[|s| - 1])
    ensures ParseIntText([c] + s) == Failure(ValueError)
  {
    var t := [c] + s;
    assert t[0] == c && t[|t| - 1] == s[|s| - 1];
    NoSignNoInt(t);
  }

  /** A text that neither starts with a sign or a digit nor has `int()`
      whitespace at its ends is no integer. */
  lemma NoSignNoInt(t: string)
    requires t != [] && !IsIntSpace(t[0]) && !IsIntSpace(t[|t| - 1])
    requires !(IsDigit(t[0]) || t[0] == '-' || t[0] == '+')
    ensures ParseIntText(t) == Failure(ValueError)
  {
    IntStripUnpadded(t);
    assert ParseIntText(t) == ParseSigned(t);
  }

  /** `int()` of a text depends only on the text with the whitespace `int()`
      skips removed. */
  lemma SameStripSameInt(a: string, b: string)
    requires IntStrip(a) == IntStrip(b)
    ensures ParseIntText(a) == ParseIntText(b)
  {
  }

  /** A string without `int()` whitespace at either end is its own `IntStrip`. */
  lemma IntStripUnpadded(s: string)
    requires s != [] && !IsIntSpace(s[0]) && !IsIntSpace(s[|s| - 1])
    ensures IntStrip(s) == s
  {
    StripByPadded([], s, [], IsIntSpace);
    assert [] + s + [] == s;
  }

  /** A string without whitespace at either end is its own `strip()`. */
  lemma StripUnpadded(s: string)
    requires s != [] && !IsSpace(s[0]) && !IsSpace(s[|s| - 1])
    ensures Strip(s) == s
  {
    StripPadded([], s, []);
    assert [] + s + [] == s;
  }

  /** Python's `int(x)` for a finite float: truncation toward zero. */
  function Trunc(x: real): (r: int)
    ensures x >= 0.0 ==> 0 <= r && r as real <= x < r as real + 1.0
    ensures x < 0.0 ==> r <= 0 && r as real - 1.0 < x <= r as real
  {
    if x >= 0.0 then x.Floor else -((-x).Floor)
  }

  /** What becomes of the OverflowError `int()` raises on an infinite float.
      The handlers catch only TypeError and ValueError, so as written it
      escapes to Flask, which answers 500. */
  datatype OverflowHandling = Uncaught | CaughtAsInvalid

  /** Python's `int(v)` on a decoded JSON value. */
  function PyInt(v: Json): (r: Result<int, PyError>)
    ensures r == Failure(OverflowError) <==> v == JFloat(PosInf) || v == JFloat(NegInf)
    ensures r.Failure? ==> r.error != AttributeError
    ensures v.JInt? ==> r == Success(v.i)
    ensures v.JBool? ==> r == Success(if v.b then 1 else 0)
  {
    match v
    case JNull => Failure(TypeError)
    case JBool(b) => Success(if b then 1 else 0)
    case JInt(i) => Success(i)
    case JFloat(Finite(x)) => Success(Trunc(x))
    case JFloat(NaN) => Failure(ValueError)
    case JFloat(_) => Failure(OverflowError)
    case JStr(s) => ParseIntText(s)
    case JArray(_) => Failure(TypeError)
    case JObject(_) => Failure(TypeError)
  }
}

=== FILE: status.dfy ===
/**
 * The submission status, which is never stored: every query derives it from
 * whether a submission row is present and whether its `marks` is NULL.
 */
module SubmissionStatus {
  import opened Wrappers
  import opened Tables

  datatype Status = Pending | Submitted | Evaluated

  /** The student-side `CASE`: a NULL submission (the LEFT JOIN found none)
      is pending, a submission with NULL marks is submitted, otherwise
      it is evaluated. */
  function StudentCase(submission: Option<Submission>): Status {
    if submission.None? then Pending
    else if submission.value.marks.None? then Submitted
    else Evaluated
  }

  /** The teacher-side `CASE`, over rows that always carry a submission. */
  function TeacherCase(marks: Option<int>): Status {
    if marks.None? then Submitted else Evaluated
  }

  /** The text the `CASE` expressions produce. */
  function Text(st: Status): (t: string)
    ensures FromText(t) == Some(st)
  {
    match st
    case Pending => "pending"
    case Submitted => "submitted"
    case Evaluated => "evaluated"
  }

  /** Reads a status back from its text. */
  function FromText(t: string): Option<Status> {
    if t == "pending" then Some(Pending)
    else if t == "submitted" then Some(Submitted)
    else if t == "evaluated" then Some(Evaluated)
    else None
  }

  /** The student rule is total and picks exactly one status for each
      combination of submission presence and marks presence. */
  lemma StudentRule(submission: Option<Submission>)
    ensures StudentCase(submission) == Pending <==> submission.None?
    ensures StudentCase(submission) == Submitted <==> submission.Some? && submission.value.marks.None?
    ensures StudentCase(submission) == Evaluated <==> submission.Some? && submission.value.marks.Some?
  {
  }

  /** On every row that has a submission, the two sides derive the same status,
      and the teacher side never says pending. */
  lemma SidesAgree(s: Submission)
    ensures StudentCase(Some(s)) == TeacherCase(s.marks)
    ensures TeacherCase(s.marks) != Pending
  {
  }

  /** `r.get("status") or "submitted"`: the status column, defaulted when it
      is NULL or empty. */
  function ShownStatus(column: Option<string>): (t: string)
    ensures t != ""
    ensures column.Some? && column.value != "" ==> t == column.value
  {
    if column.Some? && column.value != "" then column.value else "submitted"
  }

  /** A status the teacher `CASE` computed is shown as computed: the default
      never replaces it. */
  lemma ShownStatusOfComputed(marks: Option<int>)
    ensures ShownStatus(Some(Text(TeacherCase(marks)))) == Text(TeacherCase(marks))
    ensures FromText(ShownStatus(Some(Text(TeacherCase(marks))))) == Some(TeacherCase(marks))
  {
  }
}

=== FILE: student.dfy ===
/**
 * The student dashboard, the full assignment list and the results list.
 * All three read `assignments a LEFT JOIN submissions s ON a.assignment_id =
 * s.assignment_id AND s.student_id = <student>` (the first two) or the
 * student's evaluated submissions (the third), and derive each row's status
 * with the student-side `CASE`.
 */
module StudentRoutes {
  import opened Wrappers
  import opened Tables
  import opened Counting
  import opened Ordering
  import opened SubmissionStatus
  import opened SubmissionJoin

  // ---------------------------------------------------------------------
  // The LEFT JOIN

  /** One row of the LEFT JOIN; `submission` is None for the NULL row. */
  datatype JoinRow = JoinRow(assignment: Assignment, submission: Option<Submission>)

  /** The student's submissions for assignment `aid`, in table order. Nothing
      makes the pair (assignment, student) unique, so there may be several. */
  function SubmissionsFor(subs: seq<Submission>, student: string, aid: int): (r: seq<Submission>)
    ensures |r| <= |subs|
    ensures forall k :: 0 <= k < |r| ==> r[k] in subs && r[k].assignmentId == aid && r[k].studentId == student
    ensures forall k :: 0 <= k < |subs| && subs[k].assignmentId == aid && subs[k].studentId == student ==> subs[k] in r
  {
    if subs == [] then []
    else
      var init := subs[..|subs| - 1];
      var s := subs[|subs| - 1];
      assert subs == init + [s];
      var earlier := SubmissionsFor(init, student, aid);
      if s.assignmentId == aid && s.studentId == student then earlier + [s] else earlier
  }

  /** The joined rows of assignment `a` with each of the submissions `m`. */
  function Paired(a: Assignment, m: seq<Submission>): (r: seq<JoinRow>)
    ensures |r| == |m|
    ensures forall k :: 0 <= k < |r| ==> r[k] == JoinRow(a, Some(m[k]))
  {
    if m == [] then [] else Paired(a, m[..|m| - 1]) + [JoinRow(a, Some(m[|m| - 1]))]
  }

  /** The LEFT JOIN's rows for one assignment: one per matching submission,
      or a single row with NULL submission columns when there is none. */
  function RowsFor(a: Assignment, subs: seq<Submission>, student: string): (r: seq<JoinRow>)
    ensures |r| >= 1
    ensures forall k :: 0 <= k < |r| ==> r[k].assignment == a
    ensures forall k :: 0 <= k < |r| && r[k].submission.Some? ==> IsSubmissionFor(r[k].submission.value, subs, student, a)
    ensures forall k :: 0 <= k < |r| && r[k].submission.None? ==> NoSubmissionFor(subs, student, a)
  {
    var m := SubmissionsFor(subs, student, a.id);
    if m == [] then [JoinRow(a, None)] else Paired(a, m)
  }

  /** `s` is one of the student's own submissions for assignment `a`. */
  predicate IsSubmissionFor(s: Submission, subs: seq<Submission>, student: string, a: Assignment) {
    s in subs && s.studentId == student && s.assignmentId == a.id
  }

  /** The student has submitted nothing for assignment `a`. */
  predicate NoSubmissionFor(subs: seq<Submission>, student: string, a: Assignment) {
    forall j :: 0 <= j < |subs| ==> subs[j].studentId != student || subs[j].assignmentId != a.id
  }

  /** The whole LEFT JOIN, assignment by assignment: every row pairs an
      assignment of the table with one of the student's submissions for it,
      or with NULL when the student submitted nothing for it. */
  function Join(assignments: seq<Assignment>, subs: seq<Submission>, student: string): (r: seq<JoinRow>)
    ensures |r| >= |assignments|
    ensures forall k :: 0 <= k < |r| ==> r[k].assignment in assignments
    ensures forall k :: 0 <= k < |r| && r[k].submission.Some? ==>
              IsSubmissionFor(r[k].submission.value, subs, student, r[k].assignment)
    ensures forall k :: 0 <= k < |r| && r[k].submission.None? ==> NoSubmissionFor(subs, student, r[k].assignment)
  {
    if assignments == [] then []
    else
      var init := assignments[..|assignments| - 1];
      var a := assignments[|assignments| - 1];
      assert assignments == init + [a];
      Join(init, subs, student) + RowsFor(a, subs, student)
  }

  /** Every submission of the student for an assignment of the table is a
      joined row. */
  lemma {:induction false} JoinContains(assignments: seq<Assignment>, subs: seq<Submission>, student: string, a: Assignment, s: Submission)
    requires a in assignments && s in subs
    requires s.assignmentId == a.id && s.studentId == student
    ensures JoinRow(a, Some(s)) in Join(assignments, subs, student)
  {
    var init := assignments[..|assignments| - 1];
    var last := assignments[|assignments| - 1];
    assert assignments == init + [last];
    var rows := RowsFor(last, subs, student);
    if a == last {
      var m := SubmissionsFor(subs, student, a.id);
      var i :| 0 <= i < |subs| && subs[i] == s;
      assert s in m;
      var j :| 0 <= j < |m| && m[j] == s;
      assert rows[j] == JoinRow(a, Some(s));
      assert JoinRow(a, Some(s)) in rows;
    } else {
      assert a in init;
      JoinContains(init, subs, student, a, s);
    }
  }

  // ---------------------------------------------------------------------
  // Counters

  /** `COUNT(s.submission_id)` counts the rows whose submission is not NULL. */
  predicate HasSubmission(r: JoinRow) {
    r.submission.Some?
  }

  /** `COUNT(CASE WHEN s.marks IS NOT NULL THEN 1 END)`; the NULL row has NULL marks. */
  predicate HasMarks(r: JoinRow) {
    r.submission.Some? && r.submission.value.marks.Some?
  }

  predicate IsMarked(s: Submission) {
    s.marks.Some?
  }

  datatype Counters = Counters(total: int, submitted: int, evaluated: int, pending: int)

  /** The dashboard's count query. `total` is `COUNT(a.assignment_id)` over
      the joined rows and `pending` is `total - submitted`. */
  function DashboardCounts(db: Db, student: string): (c: Counters)
    ensures 0 <= c.evaluated <= c.submitted <= c.total
    ensures 0 <= c.pending == c.total - c.submitted
  {
    var rows := Join(db.assignments, db.submissions, student);
    CountMonotone(rows, HasMarks, HasSubmission);
    var submitted := Count(rows, HasSubmission);
    Counters(|rows|, submitted, Count(rows, HasMarks), |rows| - submitted)
  }

  /** How the rows of one assignment contribute to the counters. */
  lemma RowsForCounts(a: Assignment, subs: seq<Submission>, student: string)
    ensures var m := SubmissionsFor(subs, student, a.id);
            var rows := RowsFor(a, subs, student);
            && Count(rows, HasSubmission) == |m|
            && |rows| == (if m == [] then 1 else |m|)
            && Count(rows, HasMarks) == Count(m, IsMarked)
  {
    var m := SubmissionsFor(subs, student, a.id);
    if m != [] {
      PairedMarks(a, m);
    }
  }

  lemma {:induction false} PairedMarks(a: Assignment, m: seq<Submission>)
    ensures Count(Paired(a, m), HasMarks) == Count(m, IsMarked)
  {
    if m != [] {
      var init := m[..|m| - 1];
      PairedMarks(a, init);
      CountAppend(Paired(a, init), [JoinRow(a, Some(m[|m| - 1]))], HasMarks);
      CountSingle(JoinRow(a, Some(m[|m| - 1])), HasMarks);
    }
  }

  /** The student has no submission for the assignment. */
  function Unsubmitted(subs: seq<Submission>, student: string): Assignment -> bool {
    (a: Assignment) => SubmissionsFor(subs, student, a.id) == []
  }

  lemma {:induction false} JoinPending(assignments: seq<Assignment>, subs: seq<Submission>, student: string)
    ensures var rows := Join(assignments, subs, student);
            |rows| - Count(rows, HasSubmission) == Count(assignments, Unsubmitted(subs, student))
  {
    if assignments != [] {
      var init := assignments[..|assignments| - 1];
      var a := assignments[|assignments| - 1];
      JoinPending(init, subs, student);
      CountAppend(Join(init, subs, student), RowsFor(a, subs, student), HasSubmission);
      RowsForCounts(a, subs, student);
    }
  }

  /** `pending` is exactly the number of assignments the student has not
      submitted, however many submissions the student made for the others. */
  lemma PendingCountsUnsubmittedAssignments(db: Db, student: string)
    ensures DashboardCounts(db, student).pending == Count(db.assignments, Unsubmitted(db.submissions, student))
  {
    JoinPending(db.assignments, db.submissions, student);
  }

  /** No assignment has more than one submission by the student. */
  predicate AtMostOneEach(assignments: seq<Assignment>, subs: seq<Submission>, student: string) {
    forall k :: 0 <= k < |assignments| ==> |SubmissionsFor(subs, student, assignments[k].id)| <= 1
  }

  lemma {:induction false} JoinLength(assignments: seq<Assignment>, subs: seq<Submission>, student: string)
    ensures |Join(assignments, subs, student)| == |assignments| <==> AtMostOneEach(assignments, subs, student)
  {
    if assignments != [] {
      var init := assignments[..|assignments| - 1];
      var a := assignments[|assignments| - 1];
      assert assignments == init + [a];
      JoinLength(init, subs, student);
      AtMostOneEachSnoc(init, a, subs, student);
      var m := SubmissionsFor(subs, student, a.id);
      var before := Join(init, subs, student);
      var mine := RowsFor(a, subs, student);
      assert |mine| == 1 <==> |m| <= 1 by {
        if m != [] {
          assert |mine| == |m|;
        }
      }
      assert |Join(assignments, subs, student)| == |before| + |mine|;
    }
  }

  lemma AtMostOneEachSnoc(init: seq<Assignment>, a: Assignment, subs: seq<Submission>, student: string)
    ensures AtMostOneEach(init + [a], subs, student)
            <==> AtMostOneEach(init, subs, student) && |SubmissionsFor(subs, student, a.id)| <= 1
  {
    var all := init + [a];
    if AtMostOneEach(all, subs, student) {
      forall k | 0 <= k < |init|
        ensures |SubmissionsFor(subs, student, init[k].id)| <= 1
      {
        assert all[k] == init[k];
      }
      assert all[|init|] == a;
    }
  }

  /** `total_assignments` counts joined rows, not assignments: it is never
      below the number of assignments, and equals it exactly when the student
      has at most one submission per assignment. */
  lemma TotalCountsJoinedRows(db: Db, student: string)
    ensures DashboardCounts(db, student).total >= |db.assignments|
    ensures DashboardCounts(db, student).total == |db.assignments|
            <==> AtMostOneEach(db.assignments, db.submissions, student)
  {
    JoinLength(db.assignments, db.submissions, student);
  }

  // ---------------------------------------------------------------------
  // Per-row status and the listings

  function RowStatus(r: JoinRow): Status {
    StudentCase(r.submission)
  }

  function WithStatus(st: Status): JoinRow -> bool {
    (r: JoinRow) => RowStatus(r) == st
  }

  /** Any ordering of the joined rows shows each status as often as the
      counters say: pending rows are `pending`, evaluated rows `evaluated`,
      and submitted rows the rest of `submitted`. */
  lemma {:induction false} ListingMatchesCounters(db: Db, student: string, listing: seq<JoinRow>)
    requires multiset(listing) == multiset(Join(db.assignments, db.submissions, student))
    ensures var c := DashboardCounts(db, student);
            && |listing| == c.total
            && Count(listing, WithStatus(Pending)) == c.pending
            && Count(listing, WithStatus(Evaluated)) == c.evaluated
            && Count(listing, WithStatus(Submitted)) == c.submitted - c.evaluated
  {
    var rows := Join(db.assignments, db.submissions, student);
    var c := DashboardCounts(db, student);
    assert c.total == |rows| && c.submitted == Count(rows, HasSubmission) && c.evaluated == Count(rows, HasMarks);
    assert |listing| == |rows| by {
      assert |listing| == |multiset(listing)| == |multiset(rows)| == |rows|;
    }
    StatusCounts(rows);
    CountPermutation(listing, rows, WithStatus(Pending));
    CountPermutation(listing, rows, WithStatus(Evaluated));
    CountPermutation(listing, rows, WithStatus(Submitted));
  }

  /** Each status's share of the rows, in terms of what the counters count. */
  lemma StatusCounts(rows: seq<JoinRow>)
    ensures Count(rows, WithStatus(Pending)) == |rows| - Count(rows, HasSubmission)
    ensures Count(rows, WithStatus(Evaluated)) == Count(rows, HasMarks)
    ensures Count(rows, WithStatus(Submitted)) == Count(rows, HasSubmission) - Count(rows, HasMarks)
  {
    CountComplement(rows, WithStatus(Pending), HasSubmission);
    CountSame(rows, WithStatus(Evaluated), HasMarks);
    CountSplit(rows, HasSubmission, WithStatus(Submitted), WithStatus(Evaluated));
  }

  function RowDeadline(r: JoinRow): Option<int> {
    r.assignment.deadline
  }

  /** The joined rows as `ORDER BY a.deadline ASC` returns them. */
  function OrderedRows(db: Db, student: string): (rows: seq<JoinRow>)
    ensures SortedBy(rows, RowDeadline, Ascending)
    ensures multiset(rows) == multiset(Join(db.assignments, db.submissions, student))
  {
    SortBy(Join(db.assignments, db.submissions, student), RowDeadline, Ascending)
  }

  /** One entry of an assignment list, as `_row_to_assignment` builds it. */
  datatype AssignmentCard = AssignmentCard(
    id: int,
    title: string,
    subject: string,
    deadline: ShownTime,
    status: Status,
    submittedAt: Option<Timestamp>)

  /** `_row_to_assignment`: a NULL title or deadline becomes `""`; `subject`
      is never selected, so it is always `""`; a NULL `submitted_at` stays null. */
  function ToCard(r: JoinRow): (c: AssignmentCard)
    ensures c.id == r.assignment.id && c.status == StudentCase(r.submission)
    ensures r.assignment.title.Some? ==> c.title == r.assignment.title.value
    ensures c.title == "" <==> r.assignment.title.None? || r.assignment.title.value == ""
    ensures c.subject == ""
    ensures c.deadline == Shown(r.assignment.deadline)
    ensures c.deadline == NoTime <==> r.assignment.deadline.None?
    ensures r.submission.Some? ==> c.submittedAt == r.submission.value.submittedAt
    ensures c.status == Pending ==> c.submittedAt.None?
  {
    AssignmentCard(
      r.assignment.id,
      r.assignment.title.GetOr(""),
      "",
      Shown(r.assignment.deadline),
      RowStatus(r),
      if r.submission.Some? then r.submission.value.submittedAt else None)
  }

  function Cards(rows: seq<JoinRow>): (cards: seq<AssignmentCard>)
    ensures |cards| == |rows|
    ensures forall k :: 0 <= k < |rows| ==> cards[k] == ToCard(rows[k])
  {
    if rows == [] then [] else Cards(rows[..|rows| - 1]) + [ToCard(rows[|rows| - 1])]
  }

  function CardWithStatus(st: Status): AssignmentCard -> bool {
    (c: AssignmentCard) => c.status == st
  }

  lemma CardsCountStatus(rows: seq<JoinRow>, st: Status)
    ensures Count(Cards(rows), CardWithStatus(st)) == Count(rows, WithStatus(st))
  {
    var cards := Cards(rows);
    if rows != [] {
      var init := rows[..|rows| - 1];
      CardsCountStatus(init, st);
      assert cards[..|cards| - 1] == Cards(init);
    }
  }

  /** `GET /student/<id>/assignments`: every joined row, by deadline. */
  function AssignmentList(db: Db, student: string): seq<AssignmentCard> {
    Cards(OrderedRows(db, student))
  }

  /** The rows behind the list on `GET /student/<id>/dashboard`: the same
      query, `LIMIT 50`. */
  function DashboardRows(db: Db, student: string): seq<JoinRow> {
    Limit(OrderedRows(db, student), 50)
  }

  /** The list on `GET /student/<id>/dashboard`. */
  function DashboardList(db: Db, student: string): seq<AssignmentCard> {
    Cards(DashboardRows(db, student))
  }

  /** The unlimited list shows each status exactly as often as the
      dashboard's counters say. */
  lemma AssignmentListMatchesCounters(db: Db, student: string)
    ensures var c := DashboardCounts(db, student);
            var list := AssignmentList(db, student);
            && |list| == c.total
            && Count(list, CardWithStatus(Pending)) == c.pending
            && Count(list, CardWithStatus(Evaluated)) == c.evaluated
            && Count(list, CardWithStatus(Submitted)) == c.submitted - c.evaluated
  {
    var rows := OrderedRows(db, student);
    ListingMatchesCounters(db, student, rows);
    CardsCountStatus(rows, Pending);
    CardsCountStatus(rows, Evaluated);
    CardsCountStatus(rows, Submitted);
  }

  /** The dashboard list is a top-50 selection of the joined rows by
      deadline: 50 of them (all when there are fewer), earliest deadline
      first, and no row left out has a deadline that must come before a
      shown one. With at most 50 joined rows it shows every row, each status
      as often as the counters say. */
  lemma DashboardListIsTop50(db: Db, student: string)
    ensures IsTopRows(DashboardRows(db, student), Join(db.assignments, db.submissions, student), 50, RowDeadline, Ascending)
    ensures var c := DashboardCounts(db, student);
            |DashboardList(db, student)| == if c.total <= 50 then c.total else 50
    ensures DashboardCounts(db, student).total <= 50 ==>
              multiset(DashboardRows(db, student)) == multiset(Join(db.assignments, db.submissions, student))
    ensures var c := DashboardCounts(db, student);
            var list := DashboardList(db, student);
            c.total <= 50 ==>
              && Count(list, CardWithStatus(Pending)) == c.pending
              && Count(list, CardWithStatus(Evaluated)) == c.evaluated
              && Count(list, CardWithStatus(Submitted)) == c.submitted - c.evaluated
  {
    var rows := Join(db.assignments, db.submissions, student);
    LimitIsTopRows(rows, 50, RowDeadline, Ascending);
    if DashboardCounts(db, student).total <= 50 {
      AssignmentListMatchesCounters(db, student);
    }
  }

  // ---------------------------------------------------------------------
  // Results

  /** `WHERE s.student_id = <student> AND s.marks IS NOT NULL`. */
  predicate IsResultOf(student: string, s: Submission) {
    s.studentId == student && s.marks.Some?
  }

  function ResultOf(student: string): Joined -> bool {
    (j: Joined) => IsResultOf(student, j.submission)
  }

  /** The results query's rows before ordering. */
  function ResultRows(assignments: seq<Assignment>, subs: seq<Submission>, student: string): (r: seq<Joined>)
    ensures forall k :: 0 <= k < |r| ==>
              && IsResultOf(student, r[k].submission)
              && r[k].submission in subs
              && r[k].assignment in assignments
              && r[k].assignment.id == r[k].submission.assignmentId
  {
    var all := InnerJoin(assignments, subs);
    var r := Filter(all, ResultOf(student));
    assert forall k :: 0 <= k < |r| ==> r[k] in all;
    r
  }

  function ResultTime(r: Joined): Option<int> {
    r.submission.submittedAt
  }

  /** One entry of `GET /student/<id>/results`. `subject` and `score` are never
      selected, so they are always `""` and null. */
  datatype ResultCard = ResultCard(
    submissionId: int,
    assignmentId: int,
    assignmentTitle: string,
    subject: string,
    submittedAt: ShownTime,
    marks: Option<int>,
    score: Option<int>,
    feedback: string)

  function ToResultCard(r: Joined): ResultCard {
    ResultCard(
      r.submission.id,
      r.submission.assignmentId,
      r.assignment.title.GetOr(""),
      "",
      Shown(r.submission.submittedAt),
      r.submission.marks,
      None,
      r.submission.feedback.GetOr(""))
  }

  function ResultCards(rows: seq<Joined>): (cards: seq<ResultCard>)
    ensures |cards| == |rows|
    ensures forall k :: 0 <= k < |rows| ==> cards[k] == ToResultCard(rows[k])
  {
    if rows == [] then [] else ResultCards(rows[..|rows| - 1]) + [ToResultCard(rows[|rows| - 1])]
  }

  /** The results query's rows, `ORDER BY s.submitted_at DESC NULLS LAST`. */
  function OrderedResults(db: Db, student: string): seq<Joined> {
    SortBy(ResultRows(db.assignments, db.submissions, student), ResultTime, Descending)
  }

  /** `GET /student/<id>/results`. */
  function Results(db: Db, student: string): seq<ResultCard> {
    ResultCards(OrderedResults(db, student))
  }

  /** The results list holds exactly the student's submissions with marks,
      each joined to its assignment, newest first; each would show as
      evaluated, and each carries its marks. */
  lemma ResultsAreTheEvaluatedSubmissions(db: Db, student: string)
    ensures SortedBy(OrderedResults(db, student), ResultTime, Descending)
    ensures forall r :: r in OrderedResults(db, student) ==>
              && r.submission in db.submissions && r.assignment in db.assignments
              && r.submission.studentId == student
              && r.assignment.id == r.submission.assignmentId
              && StudentCase(Some(r.submission)) == Evaluated
    ensures forall s, a ::
              (s in db.submissions && a in db.assignments && a.id == s.assignmentId && IsResultOf(student, s))
              ==> Joined(s, a) in OrderedResults(db, student)
    ensures forall k :: 0 <= k < |Results(db, student)| ==>
              && Results(db, student)[k].marks == OrderedResults(db, student)[k].submission.marks
              && Results(db, student)[k].marks.Some?
  {
    OrderedResultsSound(db, student);
    OrderedResultsComplete(db, student);
    var ordered := OrderedResults(db, student);
    forall k | 0 <= k < |Results(db, student)|
      ensures Results(db, student)[k].marks == ordered[k].submission.marks
      ensures Results(db, student)[k].marks.Some?
    {
      assert ordered[k] in ordered;
    }
  }

  lemma OrderedResultsSound(db: Db, student: string)
    ensures forall r :: r in OrderedResults(db, student) ==>
              && r.submission in db.submissions && r.assignment in db.assignments
              && IsResultOf(student, r.submission)
              && r.assignment.id == r.submission.assignmentId
  {
    var rows := ResultRows(db.assignments, db.submissions, student);
    SortByMembers(rows, ResultTime, Descending);
    forall r | r in OrderedResults(db, student)
      ensures && r.submission in db.submissions && r.assignment in db.assignments
              && IsResultOf(student, r.submission)
              && r.assignment.id == r.submission.assignmentId
    {
      var k :| 0 <= k < |rows| && rows[k] == r;
    }
  }

  lemma OrderedResultsComplete(db: Db, student: string)
    ensures forall s, a ::
              (s in db.submissions && a in db.assignments && a.id == s.assignmentId && IsResultOf(student, s))
              ==> Joined(s, a) in OrderedResults(db, student)
  {
    var rows := ResultRows(db.assignments, db.submissions, student);
    SortByMembers(rows, ResultTime, Descending);
    forall s, a | s in db.submissions && a in db.assignments && a.id == s.assignmentId && IsResultOf(student, s)
      ensures Joined(s, a) in OrderedResults(db, student)
    {
      ResultRowsComplete(db.assignments, db.submissions, student, s, a);
    }
  }

  lemma ResultRowsComplete(assignments: seq<Assignment>, subs: seq<Submission>, student: string, s: Submission, a: Assignment)
    requires s in subs && a in assignments && a.id == s.assignmentId && IsResultOf(student, s)
    ensures Joined(s, a) in ResultRows(assignments, subs, student)
  {
    var all := InnerJoin(assignments, subs);
    InnerJoinContains(assignments, subs, s, a);
    var k :| 0 <= k < |all| && all[k] == Joined(s, a);
    assert ResultOf(student)(all[k]);
  }

  // Double counting: the evaluated counter sums over assignments, the
  // results list over submissions; both count the same (assignment,
  // submission) pairs.

  function EvaluatedSum(assignments: seq<Assignment>, subs: seq<Submission>, student: string): nat {
    if assignments == [] then 0
    else
      EvaluatedSum(assignments[..|assignments| - 1], subs, student)
      + Count(SubmissionsFor(subs, student, assignments[|assignments| - 1].id), IsMarked)
  }

  lemma {:induction false} EvaluatedIsSum(assignments: seq<Assignment>, subs: seq<Submission>, student: string)
    ensures Count(Join(assignments, subs, student), HasMarks) == EvaluatedSum(assignments, subs, student)
  {
    if assignments != [] {
      var init := assignments[..|assignments| - 1];
      var a := assignments[|assignments| - 1];
      EvaluatedIsSum(init, subs, student);
      CountAppend(Join(init, subs, student), RowsFor(a, subs, student), HasMarks);
      RowsForCounts(a, subs, student);
    }
  }

  /** Appending one submission to the table adds, to the evaluated sum, one
      for every assignment it is a marked submission of the student for. */
  lemma {:induction false} EvaluatedSumStep(assignments: seq<Assignment>, subs: seq<Submission>, student: string, s: Submission)
    ensures EvaluatedSum(assignments, subs + [s], student)
            == EvaluatedSum(assignments, subs, student)
               + (if IsResultOf(student, s) then |WithId(assignments, s.assignmentId)| else 0)
  {
    if assignments != [] {
      var init := assignments[..|assignments| - 1];
      var a := assignments[|assignments| - 1];
      EvaluatedSumStep(init, subs, student, s);
      var m := SubmissionsFor(subs, student, a.id);
      assert (subs + [s])[..|subs + [s]| - 1] == subs;
      if s.assignmentId == a.id && s.studentId == student {
        CountAppend(m, [s], IsMarked);
        CountSingle(s, IsMarked);
      }
    }
  }

  /** One submission's rows of the inner join are all results or none. */
  lemma JoinedWithResults(s: Submission, matches: seq<Assignment>, student: string)
    ensures Count(JoinedWith(s, matches), ResultOf(student)) == if IsResultOf(student, s) then |matches| else 0
  {
    var rows := JoinedWith(s, matches);
    if rows != [] {
      assert ResultOf(student)(rows[0]) == IsResultOf(student, s);
      if IsResultOf(student, s) {
        assert forall k :: 0 <= k < |rows| ==> ResultOf(student)(rows[k]);
      } else {
        assert forall k :: 0 <= k < |rows| ==> !ResultOf(student)(rows[k]);
      }
    }
  }

  lemma {:induction false} EvaluatedSumIsResults(assignments: seq<Assignment>, subs: seq<Submission>, student: string)
    ensures EvaluatedSum(assignments, subs, student) == |ResultRows(assignments, subs, student)|
  {
    if subs == [] {
      EvaluatedSumEmpty(assignments, student);
    } else {
      var init := subs[..|subs| - 1];
      var s := subs[|subs| - 1];
      assert subs == init + [s];
      var m := WithId(assignments, s.assignmentId);
      EvaluatedSumIsResults(assignments, init, student);
      EvaluatedSumStep(assignments, init, student, s);
      InnerJoinStep(assignments, init, s);
      CountAppend(InnerJoin(assignments, init), JoinedWith(s, m), ResultOf(student));
      JoinedWithResults(s, m, student);
    }
  }

  lemma {:induction false} EvaluatedSumEmpty(assignments: seq<Assignment>, student: string)
    ensures EvaluatedSum(assignments, [], student) == 0
  {
    if assignments != [] {
      EvaluatedSumEmpty(assignments[..|assignments| - 1], student);
    }
  }

  /** The results list has exactly as many entries as the dashboard's
      `evaluated_count`, duplicates included. */
  lemma ResultsCountIsEvaluatedCount(db: Db, student: string)
    ensures |Results(db, student)| == DashboardCounts(db, student).evaluated
  {
    var rows := ResultRows(db.assignments, db.submissions, student);
    EvaluatedIsSum(db.assignments, db.submissions, student);
    EvaluatedSumIsResults(db.assignments, db.submissions, student);
    assert |OrderedResults(db, student)| == |rows|;
  }
}

=== FILE: submit.dfy ===
/**
 * `POST /student/<student_id>/submissions`: the field checks in front of the
 * INSERT, and the effect of the INSERT on what the student's and everyone
 * else's dashboards show.
 */
module StudentSubmit {
  import opened Wrappers
  import opened PyJson
  import opened Http
  import opened Tables
  import opened Counting
  import opened SubmissionStatus
  import opened StudentRoutes
  import opened SubmissionJoin

  /** The INSERT's parameters: the int-parsed assignment id, the student id
      from the path, and the stripped file URL. */
  datatype NewSubmission = NewSubmission(assignmentId: int, studentId: string, fileUrl: string)

  const NoBody := "No JSON body."
  const MissingAssignmentId := "assignment_id is required."
  const MissingFile := "File upload is required (file_url)."
  const InvalidAssignmentId := "Invalid assignment_id."

  /** The checks of `create_submission` on the body's two fields, in the
      order the handler makes them: `file_url` is stripped first (a truthy
      non-string has no `strip` and raises), then the id must be truthy,
      the URL non-blank, and the id convertible by `int()`. */
  function CheckSubmissionFields(student: string, assignmentId: Json, file: Json, overflow: OverflowHandling): (r: Result<NewSubmission, Failure>)
    ensures r.Failure? ==> r.error.BadRequest? || r.error.Crash?
    ensures r.Success? ==>
              && PyInt(assignmentId) == Success(r.value.assignmentId)
              && r.value.studentId == student
              && StrippedOrEmpty(file) == Success(r.value.fileUrl)
              && r.value.fileUrl != []
              && !IsSpace(r.value.fileUrl[0]) && !IsSpace(r.value.fileUrl[|r.value.fileUrl| - 1])
  {
    match StrippedOrEmpty(file)
    case Failure(_) => Failure(Crash)
    case Success(fileUrl) =>
      if !Truthy(assignmentId) then Failure(BadRequest(MissingAssignmentId))
      else if fileUrl == "" then Failure(BadRequest(MissingFile))
      else
        match PyInt(assignmentId)
        case Success(n) => Success(NewSubmission(n, student, fileUrl))
        case Failure(OverflowError) =>
          if overflow == Uncaught then Failure(Crash) else Failure(BadRequest(InvalidAssignmentId))
        case Failure(_) => Failure(BadRequest(InvalidAssignmentId))
  }

  /** The whole validation of `create_submission`: a falsy body is answered
      first, a body that is not an object has no `get` and raises. */
  function ValidateSubmission(student: string, body: Option<Json>, overflow: OverflowHandling): (r: Result<NewSubmission, Failure>)
    ensures r.Failure? ==> r.error.BadRequest? || r.error.Crash?
    ensures r.Success? ==>
              && body.Some? && body.value.JObject?
              && PyInt(Get(body.value.fields, "assignment_id")) == Success(r.value.assignmentId)
              && r.value.studentId == student
              && r.value.fileUrl != []
              && !IsSpace(r.value.fileUrl[0]) && !IsSpace(r.value.fileUrl[|r.value.fileUrl| - 1])
  {
    if !HasBody(body) then Failure(BadRequest(NoBody))
    else if !body.value.JObject? then Failure(Crash)
    else
      var fields := body.value.fields;
      CheckSubmissionFields(student, Get(fields, "assignment_id"), Get(fields, "file_url"), overflow)
  }

  /** A two-field object body is validated on those two fields. */
  lemma ValidateTwoFields(student: string, id: Json, file: Json, overflow: OverflowHandling)
    ensures ValidateSubmission(student, Some(JObject(map["assignment_id" := id, "file_url" := file])), overflow)
            == CheckSubmissionFields(student, id, file, overflow)
  {
    var fields := map["assignment_id" := id, "file_url" := file];
    assert Get(fields, "assignment_id") == id;
    assert Get(fields, "file_url") == file;
    assert HasBody(Some(JObject(fields))) by {
      assert "file_url" in fields;
    }
  }

  /** `create_submission` as written. */
  function CreateSubmission(student: string, body: Option<Json>): Result<NewSubmission, Failure> {
    ValidateSubmission(student, body, Uncaught)
  }

  /** `create_submission` with every failure of `int()` answered 400. */
  function CreateSubmissionIntended(student: string, body: Option<Json>): Result<NewSubmission, Failure> {
    ValidateSubmission(student, body, CaughtAsInvalid)
  }

  /** The 400 answers, each with its message, in the handler's order: no
      body, then a falsy `assignment_id`, then a blank `file_url`, then an
      `assignment_id` `int()` rejects with TypeError or ValueError. */
  lemma SubmissionRejections(student: string, body: Option<Json>)
    ensures !HasBody(body) ==> CreateSubmission(student, body) == Failure(BadRequest(NoBody))
    ensures HasBody(body) && body.value.JObject? ==>
              var fields := body.value.fields;
              var assignmentId := Get(fields, "assignment_id");
              var fileUrl := StrippedOrEmpty(Get(fields, "file_url"));
              && (fileUrl.Success? && !Truthy(assignmentId) ==>
                    CreateSubmission(student, body) == Failure(BadRequest(MissingAssignmentId)))
              && (fileUrl == Success("") && Truthy(assignmentId) ==>
                    CreateSubmission(student, body) == Failure(BadRequest(MissingFile)))
              && (fileUrl.Success? && fileUrl.value != "" && Truthy(assignmentId)
                  && PyInt(assignmentId) in {Failure(TypeError), Failure(ValueError)} ==>
                    CreateSubmission(student, body) == Failure(BadRequest(InvalidAssignmentId)))
  {
  }

  /** An id written as the text of any integer, zero included, with any
      whitespace `int()` skips around it, and a file URL with any whitespace
      `str.strip()` removes around it, are accepted as that integer and that
      URL. */
  lemma AcceptsTextualIds(student: string, n: int, idPad: string, url: string, pad: string)
    requires AllOf(idPad, IsIntSpace)
    requires AllSpace(pad) && url != [] && !IsSpace(url[0]) && !IsSpace(url[|url| - 1])
    ensures CreateSubmission(student, Some(JObject(map["assignment_id" := JStr(idPad + IntText(n) + idPad),
                                                       "file_url" := JStr(pad + url + pad)])))
            == Success(NewSubmission(n, student, url))
  {
    var id := JStr(idPad + IntText(n) + idPad);
    ParsePaddedIntText(idPad, n, idPad);
    assert Truthy(id) by {
      assert |idPad + IntText(n) + idPad| >= |IntText(n)| > 0;
    }
    StripPadded(pad, url, pad);
    AcceptsConvertibleFields(student, id, JStr(pad + url + pad), n, url);
  }

  /** An id led by one of the separators U+001C..U+001F, which `str.strip()`
      removes but `int()` does not skip, is answered 400 "Invalid
      assignment_id." even when the rest is an integer's text. */
  lemma RejectsSeparatorLedId(student: string, c: char, n: int)
    requires '\U{1C}' <= c <= '\U{1F}'
    ensures CreateSubmission(student, Some(JObject(map["assignment_id" := JStr([c] + IntText(n)),
                                                       "file_url" := JStr("a.pdf")])))
            == Failure(BadRequest(InvalidAssignmentId))
  {
    var id := JStr([c] + IntText(n));
    SeparatorBlocksInt(c, n);
    assert Truthy(id) && PyInt(id) == Failure(ValueError);
    PdfStrips();
    RejectsAtConversion(student, id, JStr("a.pdf"), "a.pdf", Uncaught);
    ValidateTwoFields(student, id, JStr("a.pdf"), Uncaught);
  }

  lemma AcceptsConvertibleFields(student: string, id: Json, file: Json, n: int, url: string)
    requires Truthy(id) && PyInt(id) == Success(n)
    requires StrippedOrEmpty(file) == Success(url) && url != ""
    ensures CreateSubmission(student, Some(JObject(map["assignment_id" := id, "file_url" := file])))
            == Success(NewSubmission(n, student, url))
  {
    ValidateTwoFields(student, id, file, Uncaught);
  }

  /** An `assignment_id` such as `1e400`, which Python decodes to infinity,
      makes the handler as written fail with Flask's 500 instead of 400. */
  lemma OverflowingIdCrashes(student: string)
    ensures CreateSubmission(student, Some(JObject(map["assignment_id" := JFloat(PosInf), "file_url" := JStr("a.pdf")])))
            == Failure(Crash)
  {
    PdfStrips();
    assert Truthy(JFloat(PosInf)) && PyInt(JFloat(PosInf)) == Failure(OverflowError);
    RejectsAtConversion(student, JFloat(PosInf), JStr("a.pdf"), "a.pdf", Uncaught);
    ValidateTwoFields(student, JFloat(PosInf), JStr("a.pdf"), Uncaught);
  }

  lemma PdfStrips()
    ensures StrippedOrEmpty(JStr("a.pdf")) == Success("a.pdf")
  {
    StripUnpadded("a.pdf");
  }

  /** Once the URL and the id's truthiness pass, a failing `int()` decides
      the answer. */
  lemma RejectsAtConversion(student: string, id: Json, file: Json, url: string, overflow: OverflowHandling)
    requires StrippedOrEmpty(file) == Success(url) && url != ""
    requires Truthy(id) && PyInt(id).Failure?
    ensures CheckSubmissionFields(student, id, file, overflow)
            == Failure(if PyInt(id) == Failure(OverflowError) && overflow == Uncaught then Crash
                       else BadRequest(InvalidAssignmentId))
  {
  }

  /** The intended handler answers 400 "Invalid assignment_id." whenever the
      earlier checks pass and `int()` fails, overflow included, and agrees
      with the handler as written on every other request. */
  lemma IntendedRejectsEveryUnconvertibleId(student: string, body: Option<Json>)
    ensures HasBody(body) && body.value.JObject? ==>
              var fields := body.value.fields;
              var assignmentId := Get(fields, "assignment_id");
              var fileUrl := StrippedOrEmpty(Get(fields, "file_url"));
              (fileUrl.Success? && fileUrl.value != "" && Truthy(assignmentId) && PyInt(assignmentId).Failure? ==>
                 CreateSubmissionIntended(student, body) == Failure(BadRequest(InvalidAssignmentId)))
    ensures CreateSubmissionIntended(student, body) != CreateSubmission(student, body)
            ==> CreateSubmission(student, body) == Failure(Crash)
                && CreateSubmissionIntended(student, body) == Failure(BadRequest(InvalidAssignmentId))
    ensures CreateSubmissionIntended(student, body).Success? <==> CreateSubmission(student, body).Success?
  {
  }

  // ---------------------------------------------------------------------
  // The INSERT

  /** The id `SERIAL` hands out: larger than every id already in the table. */
  function FreshSubmissionId(subs: seq<Submission>): (id: int)
    ensures forall k :: 0 <= k < |subs| ==> subs[k].id < id
  {
    if subs == [] then 1
    else
      var earlier := FreshSubmissionId(subs[..|subs| - 1]);
      var last := subs[|subs| - 1].id;
      if last >= earlier then last + 1 else earlier
  }

  /** The row the INSERT adds: no marks and no feedback yet, `submitted_at`
      taking the insert time through an assumed column default. */
  function InsertedRow(subs: seq<Submission>, v: NewSubmission, now: Timestamp): Submission {
    Submission(FreshSubmissionId(subs), v.assignmentId, v.studentId, Some(v.fileUrl), None, None, Some(now))
  }

  datatype SubmitOutcome = SubmitOutcome(db: Db, response: Result<int, Failure>)

  /** The whole handler: validate, then insert and answer 201 with the new id.
      Validation is the corrected `CreateSubmissionIntended`; it differs from
      the code as written only on an infinite `assignment_id`. The
      submission's assignment reference is assumed to be a foreign key, so
      an id that names no assignment makes the INSERT fail, which the
      handler answers with 500. */
  function Submit(db: Db, student: string, body: Option<Json>, now: Timestamp): (o: SubmitOutcome)
    ensures o.response.Failure? ==> o.db == db
    ensures CreateSubmissionIntended(student, body).Failure? ==> o.response == Failure(CreateSubmissionIntended(student, body).error)
    ensures CreateSubmissionIntended(student, body).Success? ==>
              (o.response == Failure(DbError) <==> !HasAssignment(db.assignments, CreateSubmissionIntended(student, body).value.assignmentId))
    ensures o.response.Success? ==>
              && CreateSubmissionIntended(student, body).Success?
              && HasAssignment(db.assignments, CreateSubmissionIntended(student, body).value.assignmentId)
              && o.db == db.(submissions := db.submissions + [InsertedRow(db.submissions, CreateSubmissionIntended(student, body).value, now)])
              && o.response.value !in set k | 0 <= k < |db.submissions| :: db.submissions[k].id
  {
    match CreateSubmissionIntended(student, body)
    case Failure(e) => SubmitOutcome(db, Failure(e))
    case Success(v) =>
      if !HasAssignment(db.assignments, v.assignmentId) then SubmitOutcome(db, Failure(DbError))
      else
        var row := InsertedRow(db.submissions, v, now);
        SubmitOutcome(db.(submissions := db.submissions + [row]), Success(row.id))
  }

  function SubmittedSum(assignments: seq<Assignment>, subs: seq<Submission>, student: string): nat {
    if assignments == [] then 0
    else
      SubmittedSum(assignments[..|assignments| - 1], subs, student)
      + |SubmissionsFor(subs, student, assignments[|assignments| - 1].id)|
  }

  lemma {:induction false} SubmittedIsSum(assignments: seq<Assignment>, subs: seq<Submission>, student: string)
    ensures Count(Join(assignments, subs, student), HasSubmission) == SubmittedSum(assignments, subs, student)
  {
    if assignments != [] {
      var init := assignments[..|assignments| - 1];
      var a := assignments[|assignments| - 1];
      SubmittedIsSum(init, subs, student);
      CountAppend(Join(init, subs, student), RowsFor(a, subs, student), HasSubmission);
      RowsForCounts(a, subs, student);
    }
  }

  lemma {:induction false} SubmittedSumStep(assignments: seq<Assignment>, subs: seq<Submission>, student: string, s: Submission)
    ensures SubmittedSum(assignments, subs + [s], student)
            == SubmittedSum(assignments, subs, student)
               + (if s.studentId == student then |WithId(assignments, s.assignmentId)| else 0)
  {
    if assignments != [] {
      SubmittedSumStep(assignments[..|assignments| - 1], subs, student, s);
      assert (subs + [s])[..|subs + [s]| - 1] == subs;
    }
  }

  lemma {:induction false} PendingStep(assignments: seq<Assignment>, subs: seq<Submission>, student: string, s: Submission)
    requires s.studentId == student
    ensures Count(assignments, Unsubmitted(subs + [s], student))
            == Count(assignments, Unsubmitted(subs, student))
               - (if SubmissionsFor(subs, student, s.assignmentId) == [] then |WithId(assignments, s.assignmentId)| else 0)
  {
    if assignments != [] {
      PendingStep(assignments[..|assignments| - 1], subs, student, s);
      assert (subs + [s])[..|subs + [s]| - 1] == subs;
    }
  }

  /** Appending a submission that is not the student's changes nothing the
      student's queries read. */
  lemma {:induction false} JoinIgnoresOthers(assignments: seq<Assignment>, subs: seq<Submission>, student: string, s: Submission)
    requires s.studentId != student
    ensures Join(assignments, subs + [s], student) == Join(assignments, subs, student)
  {
    if assignments != [] {
      JoinIgnoresOthers(assignments[..|assignments| - 1], subs, student, s);
      assert (subs + [s])[..|subs + [s]| - 1] == subs;
    }
  }

  lemma ResultsIgnoreUnmarked(assignments: seq<Assignment>, subs: seq<Submission>, student: string, s: Submission)
    requires s.marks.None?
    ensures ResultRows(assignments, subs + [s], student) == ResultRows(assignments, subs, student)
  {
    var m := WithId(assignments, s.assignmentId);
    InnerJoinStep(assignments, subs, s);
    FilterAppend(InnerJoin(assignments, subs), JoinedWith(s, m), ResultOf(student));
    JoinedWithResults(s, m, student);
  }

  /** An accepted submission for an existing assignment is inserted with the
      int-parsed id, the path's student id and the stripped URL; it shows as
      `submitted`; the student's `submitted` grows by one, `evaluated` and
      the results stay, and `pending` drops by one exactly when this is the
      student's first submission for that assignment. */
  lemma SubmitEffectOnDashboard(db: Db, student: string, body: Option<Json>, now: Timestamp)
    requires UniqueAssignmentIds(db.assignments)
    requires CreateSubmissionIntended(student, body).Success?
    requires HasAssignment(db.assignments, CreateSubmissionIntended(student, body).value.assignmentId)
    ensures var v := CreateSubmissionIntended(student, body).value;
            var o := Submit(db, student, body, now);
            var row := InsertedRow(db.submissions, v, now);
            var before := DashboardCounts(db, student);
            var after := DashboardCounts(o.db, student);
            && o.response == Success(row.id)
            && row.assignmentId == v.assignmentId && row.studentId == student && row.fileUrl == Some(v.fileUrl)
            && StudentCase(Some(row)) == Submitted
            && (forall a :: a in db.assignments && a.id == v.assignmentId
                  ==> JoinRow(a, Some(row)) in Join(o.db.assignments, o.db.submissions, student))
            && after.submitted == before.submitted + 1
            && after.evaluated == before.evaluated
            && after.pending == before.pending
                 - (if SubmissionsFor(db.submissions, student, v.assignmentId) == [] then 1 else 0)
            && Results(o.db, student) == Results(db, student)
  {
    var v := CreateSubmissionIntended(student, body).value;
    var o := Submit(db, student, body, now);
    var row := InsertedRow(db.submissions, v, now);
    var subs' := db.submissions + [row];
    assert o.db.submissions == subs';
    UniqueWithId(db.assignments, v.assignmentId);
    SubmittedIsSum(db.assignments, db.submissions, student);
    SubmittedIsSum(db.assignments, subs', student);
    SubmittedSumStep(db.assignments, db.submissions, student, row);
    EvaluatedIsSum(db.assignments, db.submissions, student);
    EvaluatedIsSum(db.assignments, subs', student);
    EvaluatedSumStep(db.assignments, db.submissions, student, row);
    PendingCountsUnsubmittedAssignments(db, student);
    PendingCountsUnsubmittedAssignments(o.db, student);
    PendingStep(db.assignments, db.submissions, student, row);
    ResultsIgnoreUnmarked(db.assignments, db.submissions, student, row);
    forall a | a in db.assignments && a.id == v.assignmentId
      ensures JoinRow(a, Some(row)) in Join(o.db.assignments, o.db.submissions, student)
    {
      JoinContains(db.assignments, subs', student, a, row);
    }
  }

  /** A submission changes no other student's counters, list or results. */
  lemma SubmitLeavesOtherStudents(db: Db, student: string, body: Option<Json>, now: Timestamp, other: string)
    requires other != student
    ensures var o := Submit(db, student, body, now);
            && DashboardCounts(o.db, other) == DashboardCounts(db, other)
            && AssignmentList(o.db, other) == AssignmentList(db, other)
            && Results(o.db, other) == Results(db, other)
  {
    var o := Submit(db, student, body, now);
    if o.response.Success? {
      var row := InsertedRow(db.submissions, CreateSubmissionIntended(student, body).value, now);
      JoinIgnoresOthers(db.assignments, db.submissions, other, row);
      ResultsIgnoreUnmarked(db.assignments, db.submissions, other, row);
    }
  }
}

=== FILE: tables.dfy ===
/**
 * The rows of the four tables the routes read, as in-memory sequences.
 * Only the columns some query selects are kept. Timestamps are abstract
 * ordered instants; their text form is not modelled.
 */
module Tables {
  import opened Wrappers

  /** A point in time; larger is later. */
  type Timestamp = int

  datatype Assignment = Assignment(
    id: int,
    teacherId: string,
    title: Option<string>,
    description: Option<string>,
    deadline: Option<Timestamp>)

  /** `marks` is NULL until the submission is evaluated. */
  datatype Submission = Submission(
    id: int,
    assignmentId: int,
    studentId: string,
    fileUrl: Option<string>,
    marks: Option<int>,
    feedback: Option<string>,
    submittedAt: Option<Timestamp>)

  /** A row of `students` or of `teachers`. */
  datatype Person = Person(
    id: string,
    password: string,
    name: Option<string>,
    email: Option<string>)

  datatype Db = Db(
    assignments: seq<Assignment>,
    submissions: seq<Submission>,
    students: seq<Person>,
    teachers: seq<Person>)

  /** A timestamp as the handlers put it into JSON: its text, or `""` when
      the column is NULL. */
  datatype ShownTime = NoTime | ShownAt(at: Timestamp)

  function Shown(t: Option<Timestamp>): (s: ShownTime)
    ensures s.NoTime? <==> t.None?
    ensures t.Some? ==> s.at == t.value
  {
    match t
    case None => NoTime
    case Some(at) => ShownAt(at)
  }

  /** `assignment_id` is the primary key of `assignments`. */
  predicate UniqueAssignmentIds(assignments: seq<Assignment>) {
    forall i, j :: 0 <= i < j < |assignments| ==> assignments[i].id != assignments[j].id
  }

  /** `student_id` is the primary key of `students`. */
  predicate UniquePersonIds(people: seq<Person>) {
    forall i, j :: 0 <= i < j < |people| ==> people[i].id != people[j].id
  }

  /** `submission_id` is the primary key of `submissions`. */
  predicate UniqueSubmissionIds(submissions: seq<Submission>) {
    forall i, j :: 0 <= i < j < |submissions| ==> submissions[i].id != submissions[j].id
  }

  /** Under the primary key, two submissions with one id are the same row. */
  lemma SubmissionKey(submissions: seq<Submission>, s: Submission, s': Submission)
    requires UniqueSubmissionIds(submissions) && s in submissions && s' in submissions && s.id == s'.id
    ensures s == s'
  {
    var i :| 0 <= i < |submissions| && submissions[i] == s;
    var j :| 0 <= j < |submissions| && submissions[j] == s';
    assert !(i < j) && !(j < i);
  }

  /** Under the primary key, two assignments with one id are the same row. */
  lemma AssignmentKey(assignments: seq<Assignment>, a: Assignment, a': Assignment)
    requires UniqueAssignmentIds(assignments) && a in assignments && a' in assignments && a.id == a'.id
    ensures a == a'
  {
    var i :| 0 <= i < |assignments| && assignments[i] == a;
    var j :| 0 <= j < |assignments| && assignments[j] == a';
    assert !(i < j) && !(j < i);
  }

  /** Under the primary key, two people with one id are the same row. */
  lemma PersonKey(people: seq<Person>, p: Person, p': Person)
    requires UniquePersonIds(people) && p in people && p' in people && p.id == p'.id
    ensures p == p'
  {
    var i :| 0 <= i < |people| && people[i] == p;
    var j :| 0 <= j < |people| && people[j] == p';
    assert !(i < j) && !(j < i);
  }
}

=== FILE: teacher.dfy ===
/**
 * The teacher dashboard, the full submissions page and the single
 * submission view. Every query is the inner join of submissions with
 * assignments, narrowed by its own `WHERE`; the listings then LEFT JOIN
 * `students` for the name and derive each row's status with the
 * teacher-side `CASE`.
 */
module TeacherRoutes {
  import opened Wrappers
  import opened Tables
  import opened Http
  import opened Counting
  import opened Ordering
  import opened SubmissionStatus
  import opened SubmissionJoin
  import opened Lookups
  import StudentRoutes

  // ---------------------------------------------------------------------
  // Counters

  /** `WHERE a.teacher_id = <teacher> AND <cond on s>`, the shape of the three
      submission counters' filters. */
  function Where(teacher: string, cond: Submission -> bool): Joined -> bool {
    (j: Joined) => j.assignment.teacherId == teacher && cond(j.submission)
  }

  const AnySubmission: Submission -> bool := (s: Submission) => true
  const MarksNull: Submission -> bool := (s: Submission) => s.marks.None?
  const MarksNotNull: Submission -> bool := (s: Submission) => s.marks.Some?

  function OwnedBy(teacher: string): Assignment -> bool {
    (a: Assignment) => a.teacherId == teacher
  }

  datatype TeacherCounters = TeacherCounters(
    totalAssignments: nat,
    received: nat,
    pendingEvaluation: nat,
    evaluated: nat)

  /** The four `COUNT(*)` queries of the dashboard. */
  function TeacherCounts(db: Db, teacher: string): (c: TeacherCounters)
    ensures c.pendingEvaluation + c.evaluated == c.received
    ensures c.totalAssignments <= |db.assignments|
    ensures c.totalAssignments == 0 <==> forall k :: 0 <= k < |db.assignments| ==> db.assignments[k].teacherId != teacher
  {
    var rows := InnerJoin(db.assignments, db.submissions);
    CountSplit(rows, Where(teacher, AnySubmission), Where(teacher, MarksNull), Where(teacher, MarksNotNull));
    TeacherCounters(
      Count(db.assignments, OwnedBy(teacher)),
      Count(rows, Where(teacher, AnySubmission)),
      Count(rows, Where(teacher, MarksNull)),
      Count(rows, Where(teacher, MarksNotNull)))
  }

  /** The submission satisfies `cond` and its assignment exists and belongs
      to the teacher. */
  function OnOwnAssignment(assignments: seq<Assignment>, teacher: string, cond: Submission -> bool): Submission -> bool {
    (s: Submission) =>
      cond(s) && exists k :: 0 <= k < |assignments| && assignments[k].id == s.assignmentId && assignments[k].teacherId == teacher
  }

  /** One submission's joined rows pass the teacher filter once or never. */
  lemma JoinedWithOwned(assignments: seq<Assignment>, s: Submission, teacher: string, cond: Submission -> bool)
    requires UniqueAssignmentIds(assignments)
    ensures Count(JoinedWith(s, WithId(assignments, s.assignmentId)), Where(teacher, cond))
            == if OnOwnAssignment(assignments, teacher, cond)(s) then 1 else 0
  {
    var m := WithId(assignments, s.assignmentId);
    UniqueWithId(assignments, s.assignmentId);
    if |m| == 1 {
      var rows := JoinedWith(s, m);
      assert rows == [Joined(s, m[0])];
      CountSingle(Joined(s, m[0]), Where(teacher, cond));
      if OnOwnAssignment(assignments, teacher, cond)(s) {
        var k :| 0 <= k < |assignments| && assignments[k].id == s.assignmentId && assignments[k].teacherId == teacher;
        assert assignments[k] in m;
      } else {
        assert m[0] in assignments;
      }
    } else {
      assert !HasAssignment(assignments, s.assignmentId);
    }
  }

  /** Counting joined rows under the teacher filter is counting the
      submissions on the teacher's existing assignments. */
  lemma {:induction false} JoinCountByTeacher(assignments: seq<Assignment>, subs: seq<Submission>, teacher: string, cond: Submission -> bool)
    requires UniqueAssignmentIds(assignments)
    ensures Count(InnerJoin(assignments, subs), Where(teacher, cond)) == Count(subs, OnOwnAssignment(assignments, teacher, cond))
  {
    if subs != [] {
      var init := subs[..|subs| - 1];
      var s := subs[|subs| - 1];
      assert subs == init + [s];
      JoinCountByTeacher(assignments, init, teacher, cond);
      InnerJoinStep(assignments, init, s);
      CountAppend(InnerJoin(assignments, init), JoinedWith(s, WithId(assignments, s.assignmentId)), Where(teacher, cond));
      JoinedWithOwned(assignments, s, teacher, cond);
      CountAppend(init, [s], OnOwnAssignment(assignments, teacher, cond));
      CountSingle(s, OnOwnAssignment(assignments, teacher, cond));
    }
  }

  /** Each dashboard counter counts what its comment says: the teacher's
      assignments; the submissions on them; those of them without marks;
      those with marks. Submissions on other teachers' assignments, and
      submissions whose assignment is gone, are never counted. */
  lemma TeacherCountersMeaning(db: Db, teacher: string)
    requires UniqueAssignmentIds(db.assignments)
    ensures var c := TeacherCounts(db, teacher);
            && c.totalAssignments == Count(db.assignments, OwnedBy(teacher))
            && c.received == Count(db.submissions, OnOwnAssignment(db.assignments, teacher, AnySubmission))
            && c.pendingEvaluation == Count(db.submissions, OnOwnAssignment(db.assignments, teacher, MarksNull))
            && c.evaluated == Count(db.submissions, OnOwnAssignment(db.assignments, teacher, MarksNotNull))
  {
    JoinCountByTeacher(db.assignments, db.submissions, teacher, AnySubmission);
    JoinCountByTeacher(db.assignments, db.submissions, teacher, MarksNull);
    JoinCountByTeacher(db.assignments, db.submissions, teacher, MarksNotNull);
  }

  // ---------------------------------------------------------------------
  // The listings

  function OfTeacher(teacher: string): Joined -> bool {
    (j: Joined) => j.assignment.teacherId == teacher
  }

  /** The teacher's joined rows, before the students join. */
  function TeacherRows(db: Db, teacher: string): (r: seq<Joined>)
    ensures forall k :: 0 <= k < |r| ==>
              && r[k].assignment.teacherId == teacher
              && r[k].submission in db.submissions
              && r[k].assignment in db.assignments
              && r[k].assignment.id == r[k].submission.assignmentId
  {
    var all := InnerJoin(db.assignments, db.submissions);
    var r := Filter(all, OfTeacher(teacher));
    assert forall k :: 0 <= k < |r| ==> r[k] in all;
    r
  }

  /** A row after `LEFT JOIN students st ON st.student_id = s.student_id`;
      `student` is None for the NULL row. */
  datatype ListingRow = ListingRow(joined: Joined, student: Option<Person>)

  function WithStudents(j: Joined, found: seq<Person>): (r: seq<ListingRow>)
    ensures |r| == |found|
    ensures forall k :: 0 <= k < |r| ==> r[k] == ListingRow(j, Some(found[k]))
  {
    if found == [] then [] else WithStudents(j, found[..|found| - 1]) + [ListingRow(j, Some(found[|found| - 1]))]
  }

  /** `st.name`: NULL when the LEFT JOIN found no student. */
  function StudentName(r: ListingRow): Option<string> {
    if r.student.Some? then r.student.value.name else None
  }

  /** The name the LEFT JOIN on `students` gives the first row of student
      `id`: the first matching student's name, NULL when no student has the
      id. */
  function JoinedName(students: seq<Person>, id: string): (r: Option<string>)
    ensures (forall k :: 0 <= k < |students| ==> students[k].id != id) ==> r.None?
    ensures (exists k :: 0 <= k < |students| && students[k].id == id) ==>
              exists k :: 0 <= k < |students| && students[k].id == id && r == students[k].name
  {
    var found := WithPersonId(students, id);
    if found == [] then None
    else
      assert found[0] in students;
      found[0].name
  }

  /** With `student_id` a primary key, the joined name is that student's. */
  lemma JoinedNameOfTheStudent(students: seq<Person>, p: Person)
    requires UniquePersonIds(students) && p in students
    ensures JoinedName(students, p.id) == p.name
  {
    var k :| 0 <= k < |students| && students[k] == p;
    UniqueWithPersonId(students, p.id);
  }

  /** The LEFT JOIN's rows for one joined row. */
  function StudentRowsFor(j: Joined, students: seq<Person>): (r: seq<ListingRow>)
    ensures |r| >= 1
    ensures forall k :: 0 <= k < |r| ==> r[k].joined == j
    ensures StudentName(r[0]) == JoinedName(students, j.submission.studentId)
  {
    var found := WithPersonId(students, j.submission.studentId);
    if found == [] then [ListingRow(j, None)] else WithStudents(j, found)
  }

  function ListingRows(rows: seq<Joined>, students: seq<Person>): (r: seq<ListingRow>)
    ensures |r| >= |rows|
    ensures forall k :: 0 <= k < |r| ==> r[k].joined in rows
  {
    if rows == [] then []
    else
      var init := rows[..|rows| - 1];
      var j := rows[|rows| - 1];
      assert rows == init + [j];
      ListingRows(init, students) + StudentRowsFor(j, students)
  }

  /** With `student_id` a primary key the students join neither adds nor
      drops rows. */
  lemma {:induction false} ListingRowsOnePerRow(rows: seq<Joined>, students: seq<Person>)
    requires UniquePersonIds(students)
    ensures |ListingRows(rows, students)| == |rows|
    ensures forall k :: 0 <= k < |rows| ==> ListingRows(rows, students)[k].joined == rows[k]
  {
    if rows != [] {
      var init := rows[..|rows| - 1];
      var j := rows[|rows| - 1];
      var earlier := ListingRows(init, students);
      var last := StudentRowsFor(j, students);
      assert ListingRows(rows, students) == earlier + last;
      ListingRowsOnePerRow(init, students);
      UniqueWithPersonId(students, j.submission.studentId);
      assert |last| == 1;
      forall k | 0 <= k < |rows|
        ensures ListingRows(rows, students)[k].joined == rows[k]
      {
        if k < |init| {
          assert ListingRows(rows, students)[k] == earlier[k];
        } else {
          assert ListingRows(rows, students)[k] == last[0];
        }
      }
    }
  }

  function ListingTime(r: ListingRow): Option<int> {
    r.joined.submission.submittedAt
  }

  /** The listing query's rows, `ORDER BY s.submitted_at DESC NULLS LAST`. */
  function OrderedListing(db: Db, teacher: string): (rows: seq<ListingRow>)
    ensures SortedBy(rows, ListingTime, Descending)
    ensures multiset(rows) == multiset(ListingRows(TeacherRows(db, teacher), db.students))
  {
    SortBy(ListingRows(TeacherRows(db, teacher), db.students), ListingTime, Descending)
  }

  /** The columns the listing query selects. `status` is the teacher `CASE`. */
  datatype SelectedRow = SelectedRow(
    submissionId: int,
    studentId: string,
    assignmentId: int,
    submittedAt: Option<Timestamp>,
    studentName: Option<string>,
    assignmentTitle: Option<string>,
    status: Option<string>)

  function Select(r: ListingRow): SelectedRow {
    var s := r.joined.submission;
    SelectedRow(
      s.id,
      s.studentId,
      s.assignmentId,
      s.submittedAt,
      StudentName(r),
      r.joined.assignment.title,
      Some(Text(TeacherCase(s.marks))))
  }

  /** One entry of the teacher's submission lists. */
  datatype SubmissionCard = SubmissionCard(
    submissionId: int,
    studentId: string,
    studentName: string,
    assignmentId: int,
    assignmentTitle: string,
    submittedAt: ShownTime,
    status: string)

  /** `_row_to_submission`: a NULL or empty student name falls back to the
      student id, a NULL title to `""`, a NULL time to `""`, a NULL or
      empty status to `"submitted"`. */
  function ToSubmissionCard(r: SelectedRow): (c: SubmissionCard)
    ensures c.submissionId == r.submissionId && c.studentId == r.studentId && c.assignmentId == r.assignmentId
    ensures r.studentName.Some? && r.studentName.value != "" ==> c.studentName == r.studentName.value
    ensures r.studentName.None? || r.studentName.value == "" ==> c.studentName == r.studentId
    ensures c.assignmentTitle == "" <==> r.assignmentTitle.None? || r.assignmentTitle.value == ""
    ensures r.assignmentTitle.Some? && r.assignmentTitle.value != "" ==> c.assignmentTitle == r.assignmentTitle.value
    ensures c.submittedAt == Shown(r.submittedAt)
    ensures c.submittedAt == NoTime <==> r.submittedAt.None?
    ensures r.submittedAt.Some? ==> c.submittedAt == ShownAt(r.submittedAt.value)
    ensures c.status == ShownStatus(r.status) && c.status != ""
    ensures r.status.Some? && r.status.value != "" ==> c.status == r.status.value
    ensures r.status.None? || r.status.value == "" ==> c.status == "submitted"
  {
    SubmissionCard(
      r.submissionId,
      r.studentId,
      OrElse(r.studentName, r.studentId),
      r.assignmentId,
      OrElse(r.assignmentTitle, ""),
      Shown(r.submittedAt),
      ShownStatus(r.status))
  }

  function CardOf(r: ListingRow): SubmissionCard {
    ToSubmissionCard(Select(r))
  }

  function SubmissionCards(rows: seq<ListingRow>): (cards: seq<SubmissionCard>)
    ensures |cards| == |rows|
    ensures forall k :: 0 <= k < |rows| ==> cards[k] == CardOf(rows[k])
  {
    if rows == [] then [] else SubmissionCards(rows[..|rows| - 1]) + [CardOf(rows[|rows| - 1])]
  }

  /** `recent_submissions` on `GET /teacher/<id>/dashboard`. */
  function RecentSubmissions(db: Db, teacher: string): seq<SubmissionCard> {
    SubmissionCards(RecentRows(db, teacher))
  }

  /** `submissions` on `GET /teacher/<id>/submissions`. */
  function AllSubmissions(db: Db, teacher: string): seq<SubmissionCard> {
    SubmissionCards(OrderedListing(db, teacher))
  }

  /** Every listed status is the computed one, and shown as computed. */
  lemma CardStatus(r: ListingRow)
    ensures CardOf(r).status == Text(TeacherCase(r.joined.submission.marks))
    ensures FromText(CardOf(r).status) == Some(StudentCase(Some(r.joined.submission)))
  {
    ShownStatusOfComputed(r.joined.submission.marks);
    SidesAgree(r.joined.submission);
  }

  function CardShows(t: string): SubmissionCard -> bool {
    (c: SubmissionCard) => c.status == t
  }

  function RowShows(t: string): ListingRow -> bool {
    (r: ListingRow) => Text(TeacherCase(r.joined.submission.marks)) == t
  }

  function JoinedShows(t: string): Joined -> bool {
    (j: Joined) => Text(TeacherCase(j.submission.marks)) == t
  }

  lemma {:induction false} CardsShow(rows: seq<ListingRow>, t: string)
    ensures Count(SubmissionCards(rows), CardShows(t)) == Count(rows, RowShows(t))
  {
    var cards := SubmissionCards(rows);
    forall k | 0 <= k < |rows|
      ensures CardShows(t)(cards[k]) == RowShows(t)(rows[k])
    {
      CardStatus(rows[k]);
    }
    CountAlong(cards, rows, CardShows(t), RowShows(t));
  }

  lemma OrderedListingLength(db: Db, teacher: string)
    requires UniquePersonIds(db.students)
    ensures |OrderedListing(db, teacher)| == |TeacherRows(db, teacher)|
  {
    var rows := ListingRows(TeacherRows(db, teacher), db.students);
    ListingRowsOnePerRow(TeacherRows(db, teacher), db.students);
    assert |multiset(OrderedListing(db, teacher))| == |multiset(rows)|;
  }

  /** The full list shows each status text as often as the teacher's joined
      rows compute it. */
  lemma ListShowsLikeRows(db: Db, teacher: string, t: string)
    requires UniquePersonIds(db.students)
    ensures Count(AllSubmissions(db, teacher), CardShows(t)) == Count(TeacherRows(db, teacher), JoinedShows(t))
  {
    var mine := TeacherRows(db, teacher);
    var rows := ListingRows(mine, db.students);
    var ordered := OrderedListing(db, teacher);
    ListingRowsOnePerRow(mine, db.students);
    CardsShow(ordered, t);
    CountPermutation(ordered, rows, RowShows(t));
    CountAlong(rows, mine, RowShows(t), JoinedShows(t));
  }

  lemma ShowsByMarks(m: Option<int>)
    ensures Text(TeacherCase(m)) == "submitted" <==> m.None?
    ensures Text(TeacherCase(m)) == "evaluated" <==> m.Some?
  {
  }

  /** The full list has one entry per received submission, shows
      `submitted` as often as `pending_evaluation` and `evaluated` as often
      as `evaluated_count`. */
  lemma SubmissionListMatchesCounters(db: Db, teacher: string)
    requires UniquePersonIds(db.students)
    ensures var c := TeacherCounts(db, teacher);
            var list := AllSubmissions(db, teacher);
            && |list| == c.received
            && Count(list, CardShows("submitted")) == c.pendingEvaluation
            && Count(list, CardShows("evaluated")) == c.evaluated
  {
    var all := InnerJoin(db.assignments, db.submissions);
    OrderedListingLength(db, teacher);
    CountSame(all, OfTeacher(teacher), Where(teacher, AnySubmission));
    ListShowsLikeRows(db, teacher, "submitted");
    ListShowsLikeRows(db, teacher, "evaluated");
    forall k | 0 <= k < |all|
      ensures Where(teacher, MarksNull)(all[k]) == (OfTeacher(teacher)(all[k]) && JoinedShows("submitted")(all[k]))
      ensures Where(teacher, MarksNotNull)(all[k]) == (OfTeacher(teacher)(all[k]) && JoinedShows("evaluated")(all[k]))
    {
      ShowsByMarks(all[k].submission.marks);
    }
    CountFilter(all, OfTeacher(teacher), JoinedShows("submitted"), Where(teacher, MarksNull));
    CountFilter(all, OfTeacher(teacher), JoinedShows("evaluated"), Where(teacher, MarksNotNull));
  }

  /** The rows behind `recent_submissions`: the listing query, `LIMIT 50`. */
  function RecentRows(db: Db, teacher: string): seq<ListingRow> {
    Limit(OrderedListing(db, teacher), 50)
  }

  /** The dashboard's recent list is a top-50 selection of the teacher's
      listing rows by submission time: 50 of them (all when there are
      fewer), newest first with NULL times last, and no row left out was
      submitted later than a shown one. With at most 50 submissions received
      it shows each status as often as the counters say. */
  lemma RecentIsTop50(db: Db, teacher: string)
    requires UniquePersonIds(db.students)
    ensures IsTopRows(RecentRows(db, teacher), ListingRows(TeacherRows(db, teacher), db.students), 50, ListingTime, Descending)
    ensures var c := TeacherCounts(db, teacher);
            |RecentSubmissions(db, teacher)| == if c.received <= 50 then c.received else 50
    ensures var c := TeacherCounts(db, teacher);
            var recent := RecentSubmissions(db, teacher);
            c.received <= 50 ==>
              && Count(recent, CardShows("submitted")) == c.pendingEvaluation
              && Count(recent, CardShows("evaluated")) == c.evaluated
  {
    var rows := ListingRows(TeacherRows(db, teacher), db.students);
    LimitIsTopRows(rows, 50, ListingTime, Descending);
    SubmissionListMatchesCounters(db, teacher);
  }

  /** The teacher and the student see the same status: every row of the
      teacher's list is, for the student who submitted it, a row of the
      student's assignment join whose derived status has the text the
      teacher sees. */
  lemma TeacherAndStudentAgree(db: Db, teacher: string)
    ensures forall r :: r in OrderedListing(db, teacher) ==>
              var s := r.joined.submission;
              var row := StudentRoutes.JoinRow(r.joined.assignment, Some(s));
              && row in StudentRoutes.Join(db.assignments, db.submissions, s.studentId)
              && Text(StudentRoutes.RowStatus(row)) == CardOf(r).status
  {
    var mine := TeacherRows(db, teacher);
    var rows := ListingRows(mine, db.students);
    forall r | r in OrderedListing(db, teacher)
      ensures StudentRoutes.JoinRow(r.joined.assignment, Some(r.joined.submission))
                in StudentRoutes.Join(db.assignments, db.submissions, r.joined.submission.studentId)
      ensures Text(StudentRoutes.RowStatus(StudentRoutes.JoinRow(r.joined.assignment, Some(r.joined.submission)))) == CardOf(r).status
    {
      assert r in multiset(OrderedListing(db, teacher));
      assert r in rows;
      var s := r.joined.submission;
      StudentRoutes.JoinContains(db.assignments, db.submissions, s.studentId, r.joined.assignment, s);
      CardStatus(r);
      SidesAgree(s);
    }
  }

  // ---------------------------------------------------------------------
  // The assignment options of the submissions page

  /** One `{"id", "title"}` entry of the page's assignment filter. */
  datatype AssignmentOption = AssignmentOption(id: int, title: string)

  function Options(assignments: seq<Assignment>): (r: seq<AssignmentOption>)
    ensures |r| == |assignments|
    ensures forall k :: 0 <= k < |r| ==> r[k] == AssignmentOption(assignments[k].id, OrElse(assignments[k].title, ""))
  {
    if assignments == [] then []
    else
      var a := assignments[|assignments| - 1];
      Options(assignments[..|assignments| - 1]) + [AssignmentOption(a.id, OrElse(a.title, ""))]
  }

  /** `SELECT assignment_id, title FROM assignments WHERE teacher_id = <teacher>`,
      one option per assignment of the teacher's, a NULL title shown as `""`. */
  function AssignmentOptions(db: Db, teacher: string): (r: seq<AssignmentOption>)
    ensures |r| == TeacherCounts(db, teacher).totalAssignments
    ensures forall a :: a in db.assignments && a.teacherId == teacher ==> AssignmentOption(a.id, OrElse(a.title, "")) in r
    ensures forall o :: o in r ==> exists a :: a in db.assignments && a.teacherId == teacher && o == AssignmentOption(a.id, OrElse(a.title, ""))
  {
    var owned := Filter(db.assignments, OwnedBy(teacher));
    var r := Options(owned);
    forall a | a in db.assignments && a.teacherId == teacher
      ensures AssignmentOption(a.id, OrElse(a.title, "")) in r
    {
      var i :| 0 <= i < |db.assignments| && db.assignments[i] == a;
      assert a in owned;
      var j :| 0 <= j < |owned| && owned[j] == a;
      assert r[j] == AssignmentOption(a.id, OrElse(a.title, ""));
    }
    forall o | o in r
      ensures exists a :: a in db.assignments && a.teacherId == teacher && o == AssignmentOption(a.id, OrElse(a.title, ""))
    {
      var j :| 0 <= j < |r| && r[j] == o;
      assert owned[j] in db.assignments && OwnedBy(teacher)(owned[j]);
    }
    r
  }

  // ---------------------------------------------------------------------
  // GET /submission/<id>

  datatype SubmissionDetail = SubmissionDetail(
    id: int,
    studentId: string,
    studentName: string,
    assignmentId: int,
    assignmentTitle: string,
    status: string,
    submittedAt: ShownTime,
    deadline: ShownTime,
    fileUrl: string)

  function HasSubmissionId(id: int): Joined -> bool {
    (j: Joined) => j.submission.id == id
  }

  function Detail(r: ListingRow): (d: SubmissionDetail)
    ensures var s := r.joined.submission;
            var a := r.joined.assignment;
            && d.id == s.id && d.studentId == s.studentId && d.assignmentId == s.assignmentId
            && d.studentName == OrElse(StudentName(r), s.studentId)
            && d.assignmentTitle == OrElse(a.title, "")
            && d.status == Text(TeacherCase(s.marks))
            && d.submittedAt == Shown(s.submittedAt)
            && d.deadline == Shown(a.deadline)
            && d.fileUrl == OrElse(s.fileUrl, "")
  {
    var c := CardOf(r);
    CardStatus(r);
    SubmissionDetail(
      c.submissionId,
      c.studentId,
      c.studentName,
      c.assignmentId,
      c.assignmentTitle,
      c.status,
      c.submittedAt,
      Shown(r.joined.assignment.deadline),
      OrElse(r.joined.submission.fileUrl, ""))
  }

  /** The joined rows with submission id `id`. */
  function RowsWithId(db: Db, id: int): (found: seq<Joined>)
    ensures found == [] <==>
              !exists s, a :: s in db.submissions && a in db.assignments && s.id == id && a.id == s.assignmentId
    ensures forall k :: 0 <= k < |found| ==>
              && found[k].submission in db.submissions && found[k].assignment in db.assignments
              && found[k].submission.id == id && found[k].assignment.id == found[k].submission.assignmentId
  {
    RowsWithIdFacts(db, id);
    Filter(InnerJoin(db.assignments, db.submissions), HasSubmissionId(id))
  }

  lemma RowsWithIdFacts(db: Db, id: int)
    ensures var found := Filter(InnerJoin(db.assignments, db.submissions), HasSubmissionId(id));
            && (found == [] <==>
                  !exists s, a :: s in db.submissions && a in db.assignments && s.id == id && a.id == s.assignmentId)
            && forall k :: 0 <= k < |found| ==>
                 && found[k].submission in db.submissions && found[k].assignment in db.assignments
                 && found[k].submission.id == id && found[k].assignment.id == found[k].submission.assignmentId
  {
    var found := Filter(InnerJoin(db.assignments, db.submissions), HasSubmissionId(id));
    RowsWithIdSound(db, id);
    JoinedWithIdFound(db, id);
    forall s, a | s in db.submissions && a in db.assignments && s.id == id && a.id == s.assignmentId
      ensures found != []
    {
      assert Joined(s, a) in found;
    }
    if found != [] {
      var j := found[0];
      assert j.submission in db.submissions && j.assignment in db.assignments
             && j.submission.id == id && j.assignment.id == j.submission.assignmentId;
    }
  }

  lemma RowsWithIdSound(db: Db, id: int)
    ensures var found := Filter(InnerJoin(db.assignments, db.submissions), HasSubmissionId(id));
            forall k :: 0 <= k < |found| ==>
              && found[k].submission in db.submissions && found[k].assignment in db.assignments
              && found[k].submission.id == id && found[k].assignment.id == found[k].submission.assignmentId
  {
    var all := InnerJoin(db.assignments, db.submissions);
    var found := Filter(all, HasSubmissionId(id));
    assert forall k :: 0 <= k < |found| ==> found[k] in all;
  }

  lemma JoinedWithIdFound(db: Db, id: int)
    ensures forall s, a :: s in db.submissions && a in db.assignments && s.id == id && a.id == s.assignmentId ==>
              Joined(s, a) in Filter(InnerJoin(db.assignments, db.submissions), HasSubmissionId(id))
  {
    var all := InnerJoin(db.assignments, db.submissions);
    forall s, a | s in db.submissions && a in db.assignments && s.id == id && a.id == s.assignmentId
      ensures Joined(s, a) in Filter(all, HasSubmissionId(id))
    {
      InnerJoinContains(db.assignments, db.submissions, s, a);
      var k :| 0 <= k < |all| && all[k] == Joined(s, a);
      assert HasSubmissionId(id)(all[k]);
    }
  }

  /** `WHERE s.submission_id = <id>` and `fetchone()`: 404 when no
      submission with the id has an existing assignment; otherwise the first
      row, which the students join derives from the first joined row. The
      name is the joined student's, or the student id when that is NULL or
      empty. */
  function SubmissionById(db: Db, id: int): (r: Result<SubmissionDetail, Failure>)
    ensures r.Failure? <==>
              !exists s, a :: s in db.submissions && a in db.assignments && s.id == id && a.id == s.assignmentId
    ensures r.Failure? ==> r.error == NotFound("Submission not found.")
    ensures r.Success? ==>
              exists s, a :: s in db.submissions && a in db.assignments && s.id == id && a.id == s.assignmentId
                             && r.value.id == id && r.value.studentId == s.studentId
                             && r.value.studentName == OrElse(JoinedName(db.students, s.studentId), s.studentId)
                             && r.value.assignmentId == a.id
                             && r.value.assignmentTitle == OrElse(a.title, "")
                             && r.value.status == Text(TeacherCase(s.marks))
                             && r.value.submittedAt == Shown(s.submittedAt)
                             && r.value.deadline == Shown(a.deadline)
                             && r.value.fileUrl == OrElse(s.fileUrl, "")
  {
    var found := RowsWithId(db, id);
    if found == [] then
      Failure(NotFound("Submission not found."))
    else
      var row := StudentRowsFor(found[0], db.students)[0];
      Success(Detail(row))
  }

  /** With the primary keys in place, the view shows the one submission with
      that id, joined to its assignment. */
  lemma SubmissionByIdIsTheSubmission(db: Db, s: Submission, a: Assignment)
    requires UniqueSubmissionIds(db.submissions) && UniqueAssignmentIds(db.assignments)
    requires s in db.submissions && a in db.assignments && a.id == s.assignmentId
    ensures SubmissionById(db, s.id).Success?
    ensures var d := SubmissionById(db, s.id).value;
            && d.studentId == s.studentId && d.assignmentId == a.id
            && d.studentName == OrElse(JoinedName(db.students, s.studentId), s.studentId)
            && d.assignmentTitle == OrElse(a.title, "")
            && d.status == Text(TeacherCase(s.marks))
            && d.submittedAt == Shown(s.submittedAt)
            && d.deadline == Shown(a.deadline)
            && d.fileUrl == OrElse(s.fileUrl, "")
  {
    var r := SubmissionById(db, s.id);
    var s', a' :| s' in db.submissions && a' in db.assignments && s'.id == s.id && a'.id == s'.assignmentId
                  && r.value.studentId == s'.studentId && r.value.assignmentId == a'.id
                  && r.value.studentName == OrElse(JoinedName(db.students, s'.studentId), s'.studentId)
                  && r.value.assignmentTitle == OrElse(a'.title, "")
                  && r.value.status == Text(TeacherCase(s'.marks))
                  && r.value.submittedAt == Shown(s'.submittedAt)
                  && r.value.deadline == Shown(a'.deadline)
                  && r.value.fileUrl == OrElse(s'.fileUrl, "");
    SubmissionKey(db.submissions, s, s');
    AssignmentKey(db.assignments, a, a');
  }
}

=== FILE: wrappers.dfy ===
/** Option and Result, the two failure-carrying datatypes the model uses. */
module Wrappers {

  /** A nullable value: SQL NULL and Python's None are both `None`. */
  datatype Option<+T> = None | Some(value: T) {

    /** The wrapped value, or `default` when there is none. */
    function GetOr(default: T): T {
      match this
      case Some(v) => v
      case None => default
    }
  }

  /** The outcome of a request handler: a value, or the reason it was refused. */
  datatype Result<+T, +E> = Success(value: T) | Failure(error: E) {

    predicate IsFailure() {
      Failure?
    }

    function PropagateFailure<U>(): Result<U, E>
      requires Failure?
    {
      Failure(error)
    }

    function Extract(): T
      requires Success?
    {
      value
    }
  }
}
